=== FILE: README.md ===
# process-viewer, modelled in Dafny

process-viewer is a local dashboard that lists the development processes
running on a machine: Python, Node.js and Ruby programs, containers,
databases and their helpers. For each process it shows what the process
is, which web ports it serves and which processes belong with it. This
project models the decision logic behind that list as pure functions over
a snapshot of the process table:

- `Procs`: one process as the program sees it, with its name, executable,
  argument vector, working directory, parent and grandparent names,
  listening ports, memory and age.
- `Ports`: the filter that keeps only browser-facing ports. It keeps the
  common web ports and the development port bands, drops the internal and
  ephemeral ones, and returns each port once, in ascending order.
- `Classifier`: `_get_process_description`. The known-application table
  is tried first. Then a fixed order of command-line branches decides:
  Python, Node.js, Ruby, Docker, Git, databases, editors. Last, the
  working-directory rule applies. The description, display name,
  category and user-process flag each branch produces are modelled,
  including the Python/Node script texts, the npm script name, the Docker
  image scan and the Git operation.
- `Related`: `_find_related_processes`, the first-match rule chain that
  tags helpers (package managers, virtual environments, bundlers, workers)
  of a displayed process.
- `Identifier`: `identify_process`, `_is_from_terminal` and the two-pass
  selection in `get_user_processes`.
- `Monitor` and `Uptime`: the `ProcessMonitor` helpers. These are the
  listening-port normalisation, the script-name rule, `format_uptime`, and
  the selection and memory sort of `get_dev_processes`.

Each operation's contract says what its result means, and lemmas connect
the operations to partners: an inverse, an invariant or a simpler
equivalent form. Helpers and small definitions such as `Render`,
`ParseUptime`, `RelatedKind.Label` and the table lookups carry no contract
of their own; the lemmas about them state what they mean. Among the properties:

- the port filter is idempotent, and its sorted output is the only
  strictly ascending list with those ports;
- the classifier's branch order is fixed;
- the editor branch can never yield "Neovim", and the table's "nvim" entry
  is shadowed by "vim";
- the Docker image comes from the last `run` that has a non-flag
  successor;
- the uptime text reads back to its band and numbers;
- the memory sort is a stable permutation, largest first.

The program groups processes only through `_find_related_processes`;
nothing else combines or renames them.

## Model

| member | source | states |
|---|---|---|
| Ports.WebPortShape | process_identifier.py:97-125 | a kept port is a listed web port or lies in a development band, and every kept port is between 80 and 9100 and outside the ephemeral range |
| Ports.WebPortBandEdge | process_identifier.py:112-115 | the 8000-8100 band is inclusive: 8100 is kept and 8101 is not |
| Ports.WebPortDropsEphemeral | process_identifier.py:117-125 | ephemeral and unlisted ports (50000, 54321, 22) are dropped |
| Ports.IsWebPort | process_identifier.py:97-125 | a kept port lies between 80 and 9100 and outside the ephemeral range |
| Ports.InsertSorted | process_identifier.py:128-129 | inserting into a strictly ascending list keeps it strictly ascending, with the new port added to its elements |
| Ports.SortedDistinct | process_identifier.py:128-129 | `sort(set(...))`: the result is strictly ascending and holds exactly the input's ports |
| Ports.StrictlyIncreasingUnique | process_identifier.py:128-129 | two strictly ascending lists with the same elements are equal, so the deduplicated sorted list is determined by the port set |
| Ports.SortedDistinctIdempotent | process_identifier.py:128-129 | deduplicating and sorting twice gives the same list as once |
| Ports.WebPortsIn | process_identifier.py:92-125 | the kept ports are exactly the input ports that pass the web-port test |
| Ports.FilterWebPorts | process_identifier.py:88-131 | the recorded listening ports: strictly ascending, exactly the input's web ports, all within 80-9100 and outside the ephemeral range |
| Ports.FilterWebPortsIdempotent | process_identifier.py:88-131 | filtering an already filtered port list changes nothing |
| Classifier.KnownKeysAreLowerWords | process_identifier.py:28-63 | every key of the known-application table is a non-empty lower-case word |
| Classifier.KnownKeyIsLowerWord | process_identifier.py:28-63 | the same fact for one table entry |
| Classifier.KnownAppFrom | process_identifier.py:224-225 | the table scan finds the first key (in table order) contained in the lower-cased name, or reports that none is |
| Classifier.KnownAppWins | process_identifier.py:223-230 | when a table key matches, the first matching key decides: its text is the description, the display name is the key with its first letter upper-cased (so it lower-cases back to the key), the category is Development Tool, and neither the command line nor the working directory changes the result |
| Classifier.UnrecognisedFallsToCwdRule | process_identifier.py:214-531 | with no table key and no branch (or no command line) the result keeps the process name as description and display name, and is a User Process exactly when the directory is under /Users/ or /home/, System otherwise |
| Classifier.EmptyCommandIsUnclassified | process_identifier.py:233-531 | with no command line and no table key, even a name containing "python" is not classified: the display name is the process name and the category is System or User Process |
| Classifier.BranchOrder | process_identifier.py:237-505 | "python" in the name or command beats all other branches, then "node", then "ruby"; below them the command alone decides, in the order "docker", "git", a database marker, an editor marker |
| Classifier.SelectBranch | process_identifier.py:237-505 | the Python branch is taken exactly when "python" is in the name or command, and no branch exactly when none of the branch words or markers occurs |
| Classifier.CategoryOfBranch | process_identifier.py:233-531 | with no table key and a command line, the category is the selected branch's category, or User Process when no branch applies and the directory is under a home tree |
| Classifier.PythonWins | process_identifier.py:237-239 | a name or command mentioning Python is a Python Application, whatever else the command names |
| Classifier.DescribeCommand | process_identifier.py:233-520 | an empty command line leaves the default result; otherwise the category is the selected branch's; the user-process flag is set exactly when the category is not System |
| Classifier.ApplyCwd | process_identifier.py:522-531 | the working-directory rule changes only the flag and a System category: under /Users/ or /home/ the process becomes a user process and System becomes User Process |
| Classifier.Describe | process_identifier.py:212-532 | a table match gives a Development Tool; the user flag is set exactly when the category is not System; a home-tree directory always gives a user process, and User Process arises only from a home-tree directory |
| Classifier.HomeTreeIsUserProcess | process_identifier.py:522-531 | a process in a home tree is always a user process and never System |
| Classifier.WithPythonScript | process_identifier.py:241-306 | with no `.py` argument nothing changes; otherwise the first `.py` argument's base name without ".py" becomes the display name and the description is the script text for that argument and name; the category and the user-process flag never change |
| Classifier.ScriptContext | process_identifier.py:248-266 | the suffix is empty or one '/'-free directory name in parentheses; it is empty without a readable directory; it names the working directory when that name is non-empty and differs from the script's name, and otherwise can only name the parent directory, never Users or home |
| Classifier.PythonScriptText | process_identifier.py:268-304 | the text ends with the script's name and context, unless the script lies under a home directory and its path holds Documents, GitHub or Projects, in which case it is "Python: " and that path; "app.py" in the path wins over every later rule |
| Classifier.RelativeToKnownFolder | process_identifier.py:289-302 | a path is found exactly when Documents, GitHub or Projects is a component; it starts at Documents when that is present, else at GitHub, else at Projects |
| Classifier.ModuleArg | process_identifier.py:309-313 | no module argument without a `-m`; otherwise the argument right after the FIRST `-m`, or none when that `-m` is the last argument |
| Classifier.WithPythonModule | process_identifier.py:308-353 | with no argument after the first `-m` nothing changes; otherwise that argument becomes the display name and the description is its module text followed by the directory context; the category and the flag never change |
| Classifier.ModuleContext | process_identifier.py:316-328 | the suffix is " in " and one '/'-free directory name other than Users or home; it is present exactly when the working directory's name is neither empty, Users nor home, and then names it |
| Classifier.PythonModuleFrom | process_identifier.py:331-350 | the module table scan finds the entry whose name equals the module, or reports that none does |
| Classifier.PythonModulesDistinct | process_identifier.py:331-350 | the nine listed modules have distinct names and distinct texts, and no text starts like the generic "Python Module: " text |
| Classifier.ModuleText | process_identifier.py:331-350 | a listed module gets its fixed text (http.server, flask, django, pytest, unittest, pip, venv, jupyter, ipython, compared exactly); any other gets "Python Module: " and its name |
| Classifier.ModuleTextInjective | process_identifier.py:331-350 | different modules get different texts |
| Classifier.WithStreamlit | process_identifier.py:354-364 | a command that does not mention streamlit (any case) is left alone; one that does is named "Streamlit" and described as "Streamlit App: " plus the first `.py` argument not itself mentioning streamlit, without its extension, or as "Streamlit Application" when there is none; the category and the flag never change |
| Classifier.DescribePython | process_identifier.py:237-369 | a Python Application user process whose display name follows the precedence streamlit > the argument after the first `-m` > the first `.py` script's base name > the process name, with the matching description (Streamlit text, module text and context, script text, or the name); a command naming .venv, virtualenv or pipenv appends " (Virtual Environment)" to every one of them |
| Classifier.PythonResult | process_identifier.py:237-531 | when the Python branch is taken, the final description and display name are the branch's, and the virtual-environment suffix survives the directory rule |
| Classifier.NpmScriptName | process_identifier.py:426-432 | without a "run" there is no npm script name; a name that is found is a non-empty word without whitespace |
| Classifier.UpToNextRun | process_identifier.py:427-429 | `split('run')[1]` cut at the next "run": a prefix of the text in which no "run" starts, ending either at the end of the text or exactly where the next "run" starts |
| Classifier.NpmScriptAfterRun | process_identifier.py:426-432 | `npm run <word>`: the script name is the first word after the first "run", when no other "run" starts before that word ends |
| Classifier.NpmRunNamesNodeApp | process_identifier.py:426-432 | a Node.js command mentioning npm whose first "run" is followed by blanks and a script word gets display name "npm:<word>" and description "NPM Script: <word>" |
| Classifier.FirstWordBeforeRun | process_identifier.py:429 | after optional whitespace, a word followed by whitespace or the end is the first word of the text up to the next "run" |
| Classifier.DescribeNode | process_identifier.py:372-432 | a Node.js Application user process; a command containing "npm" and "run" that names a script is "npm:<script>" / "NPM Script: <script>"; otherwise the first `.js`/`.ts` argument's base name with those extensions removed is the display name, with the script text as description; otherwise the process name stands for both |
| Classifier.NodeContext | process_identifier.py:376-387 | the suffix is empty or one '/'-free directory name in parentheses, never Users or home; it is empty without a readable directory; it names the working directory unless that name is empty, node, src or dist, when it can only name the parent directory |
| Classifier.NodeScriptText | process_identifier.py:394-422 | the text ends with the script's name and context, unless the script lies under a home directory, outside node_modules, with Documents, GitHub or Projects in its path, in which case it is "Node: " and that path; a script under node_modules is always named; "server" in the name gives "Node Server: " |
| Classifier.DescribeRuby | process_identifier.py:435-451 | a Ruby Application user process: a command containing "rails" is "Rails Server" / "Ruby on Rails Application"; else one containing "bundle" is "Bundler" / "Ruby Bundler Process"; else the first `.rb` argument's base name without ".rb" is the display name and "Ruby Script: <name>" the description; else the process name stands for both |
| Classifier.ImageName | process_identifier.py:466 | `split('/')[-1].split(':')[0]`: the image name is the part of the last path component before its first ':', so it holds neither a registry path nor a tag |
| Classifier.SplitPiecesAvoid | process_identifier.py:466 | the pieces of `split(c)` never contain `c`, and every character of a piece comes from the input |
| Classifier.DescribeDocker | process_identifier.py:454-469 | a Container user process; when the command contains "run" and some "run" word has a non-flag successor, the image after the last such word gives "Docker: <image>" / "Docker Container: <image>"; otherwise the display name is "Docker" and the description the process name |
| Classifier.LastRunBetween | process_identifier.py:461-469 | finds the last "run" position in a range that has a non-flag word after it, or reports that there is none |
| Classifier.ScanRun | process_identifier.py:461-469 | an image once found is never lost, and a changed result is an image name with no '/' and no ':' |
| Classifier.ScanStepMeaning | process_identifier.py:462-469 | one step of the outer scan replaces the found image exactly at a "run" that has a non-flag successor |
| Classifier.ScanRunFindsLastRun | process_identifier.py:461-469 | the scan's result is the image after the last qualifying "run", or what was found before when there is none |
| Classifier.LastRunSplitsLow | process_identifier.py:461-469 | the last qualifying position of a range is that of the range without its lowest position, if any, else the lowest position when it qualifies |
| Classifier.DockerImageFromLastRun | process_identifier.py:459-469 | no image is named exactly when no "run" has a non-flag successor; otherwise the image comes from the last such "run", so a later `run` overrides an earlier one |
| Classifier.DescribeGit | process_identifier.py:472-484 | a Version Control user process named "Git", described as "Git: <op> operation" for the first of clone, pull, push, fetch, merge, rebase, commit that the command contains, or "Git Operation" when it contains none |
| Classifier.VersionControlIsGit | process_identifier.py:472-475 | every Version Control result is named "Git" |
| Classifier.DescribeDatabase | process_identifier.py:487-502 | a Database user process named, in this order of precedence on the lower-cased command, PostgreSQL, MySQL, MongoDB (for mongodb or mongod) or Redis, each with its own description; with none of the markers the process name stands for both |
| Classifier.DescribeIde | process_identifier.py:505-520 | the editor branch yields a Development IDE user process whose name is VS Code, Vim, Emacs or the process name, and whose description is the matching text or the process name |
| Classifier.NvimMentionsVim | process_identifier.py:512-517 | a text containing "nvim" contains "vim", so the "nvim" test after "vim" can never be reached |
| Classifier.IdeNeverNeovim | process_identifier.py:505-520 | a Development IDE result is never named "Neovim" nor described as "Neovim Text Editor" |
| Classifier.BranchOfCategory | process_identifier.py:505-507 | a Development IDE result comes only from the editor branch, with no table key and a command line |
| Classifier.EditorResult | process_identifier.py:505-531 | when the editor branch is taken, the final result is the branch's result unchanged |
| Classifier.NeovimNameIsKnown | process_identifier.py:60-61 | a process literally named "Neovim" or "Neovim Text Editor" is caught by the table's "vim" key first |
| Classifier.VimMakesKnown | process_identifier.py:224-230 | a lower-cased name containing "vim" is a known application |
| Classifier.KnownAppNeverNvim | process_identifier.py:60-61 | the table's "nvim" entry is shadowed by the earlier "vim" entry: no Development Tool is named "Nvim" |
| Classifier.NvimTitleKey | process_identifier.py:227 | the only lower-case key whose title case is "Nvim" is "nvim" |
| Classifier.NvimKeyPosition | process_identifier.py:28-63 | no table entry up to "vim" has the key "nvim" |
| Related.Take3 | process_identifier.py:605 | `cmdline[:3]`: the first min(3, n) arguments |
| Related.FindRelated | process_identifier.py:534-611 | lists exactly the candidates other than the main process that some rule matches, each with its rule and first three arguments; never the main process |
| Related.FindRelatedAppend | process_identifier.py:540-611 | the scan handles candidates one at a time, so the result keeps the candidates' order |
| Related.MainNeverRelated | process_identifier.py:542-543 | the main process never appears among its own related processes |
| Related.NoCwdOnlyChildren | process_identifier.py:555-596 | with no known, non-empty main directory, only children of the main process can be related, and only by the worker rules |
| Related.SameCwdRulesNeedCwd | process_identifier.py:566-588 | the six directory rules fire only for a process in the main process's directory |
| Related.PythonChildRule | process_identifier.py:590-596 | a Python child that no directory rule claims is a worker exactly when its command names a worker keyword, and is never a web-server worker |
| Related.PythonNeverWebServerWorker | process_identifier.py:590-596 | a process whose name mentions Python is never tagged as a web-server worker, even when it runs Gunicorn or Uvicorn |
| Related.NodeManagerLabel | process_identifier.py:576-577 | a Yarn or PNPM helper is labelled with its upper-cased name, and its name mentions yarn or pnpm |
| Related.KindFor | process_identifier.py:566-596 | a directory rule fires only in the main directory and a worker rule only for a child; a worker names Python and a worker keyword, a web-server worker names Gunicorn or Uvicorn and not Python |
| Related.KindOf | process_identifier.py:545-596 | the same guarantee on a candidate process: a directory rule needs the same non-empty directory, a worker rule needs the main process as parent |
| Identifier.ShellMarkersReduce | process_identifier.py:203-205 | the first-argument test is the same as looking for "sh", "python", "node" or "ruby": "bash" and "zsh" add nothing |
| Identifier.IsFromTerminal | process_identifier.py:188-210 | from a terminal exactly when the parent or grandparent is a terminal or shell, or the first argument contains "sh", "python", "node" or "ruby" |
| Identifier.Identify | process_identifier.py:65-186 | the record copies pid, name, command line and directory, and the parent's pid and name when there is a parent; its description, display name and category are those of the process description; its ports are strictly ascending and exactly the web ports when ports are checked (none otherwise); it is from a terminal exactly when it has a parent and the terminal test holds; the user-directory flag is set exactly when the working directory lies under /Users/ or /home/, and then the process is a non-System user process; the user flag matches the category |
| Identifier.Candidates | process_identifier.py:627-651 | the first pass keeps exactly the processes whose name contains no excluded word and whose executable is not under /System/, /usr/libexec/ or /usr/sbin/ |
| Identifier.CandidatesAppend | process_identifier.py:627-651 | the first pass handles processes one at a time, so the candidates keep the table order |
| Identifier.ShowAll | process_identifier.py:654-687 | the second pass lists exactly the candidates whose identified record passes the category, display-name and description filters, each with its related processes |
| Identifier.Entries | process_identifier.py:654-663 | the record of every candidate, position by position |
| Identifier.Displayed | process_identifier.py:663-680 | keeps exactly the records that pass the display filters |
| Identifier.EntriesAppend | process_identifier.py:654-663 | identifying two lists of candidates in turn gives the first list's records before the second's |
| Identifier.DisplayedAppend | process_identifier.py:663-680 | filtering two lists of records in turn gives the first list's survivors before the second's |
| Identifier.ShowAllAppend | process_identifier.py:654-687 | the second pass handles candidates one at a time, so the listed records keep the candidates' order |
| Identifier.GetUserProcesses | process_identifier.py:623-687 | the listed processes are exactly the first-pass candidates whose records pass the second-pass filters |
| Identifier.Displayable | process_identifier.py:663-680 | a record is shown exactly when its category is not System, User Process or Development IDE, its display name is not a hidden editor or Git, and its description names neither VS Code nor Git version control; the separate Git name test adds nothing |
| Identifier.VersionControlNeverShown | process_identifier.py:670-680 | a Version Control record never passes the filters, since it is always named "Git" |
| Identifier.ListedShape | process_identifier.py:663-685 | every listed record is a user process, is not System, User Process, Development IDE or Version Control, and does not list itself as related |
| Identifier.ExcludedNameNeverListed | process_identifier.py:627-639 | a process whose lower-cased name contains an excluded word is never listed, whatever its command line |
| Identifier.NoPortsWithoutKeyword | process_identifier.py:658-663 | without a server-suggesting word in the name no ports are recorded |
| Monitor.ListeningPorts | process_monitor.py:15-26 | each listening port once, ascending; empty exactly when the input is |
| Monitor.FirstPyHit | process_monitor.py:52-58 | finds the first argument that ends in .py or follows "-m", or reports that none does |
| Monitor.ScriptName | process_monitor.py:48-64 | no script name without a command line, and a Node.js or npm script name is a base name (no '/') |
| Monitor.ModuleScriptName | process_monitor.py:52-58 | `python -m <module>`, with no earlier .py argument or "-m", is named after the module |
| Monitor.PythonScriptName | process_monitor.py:52-55 | the first .py argument, with no earlier stop, names a Python process by its base name |
| Monitor.NodeScriptName | process_monitor.py:60-64 | a Node.js or npm process is named after the base name of its first non-flag argument after the program |
| Monitor.NodeNoScriptName | process_monitor.py:60-64 | a Node.js or npm process whose arguments after the program are all flags gets no script name |
| Monitor.PythonNoScriptName | process_monitor.py:50-58 | a Python process with no .py argument and no "-m" followed by an argument gets no script name |
| Monitor.OtherNoScriptName | process_monitor.py:48-64 | a process named neither python, node nor npm gets no script name |
| Monitor.ListedHasPortsOrName | process_monitor.py:129-130 | every listed process listens on a port or has "python" or "node" in its lower-cased name |
| Monitor.OrUnknown | process_monitor.py:35-43 | an empty executable or directory reads "Unknown", a non-empty one is kept; an unreadable one (`None`) also reads "Unknown", but Monitor.Keep never lists such a process |
| Monitor.GetProcessInfo | process_monitor.py:28-69 | the record copies pid, name and memory, joins the command line with spaces, takes its executable and directory through the "Unknown" default, holds each listening port once in order, carries the script-name rule's result, and its uptime text reads back to the age's band and numbers |
| Monitor.TargetsReduce | process_monitor.py:99-103 | the target test is the same as looking for python, node, npm, yarn, pnpm, deno or bun: "python3" adds nothing |
| Monitor.ManagerNeedsPorts | process_monitor.py:129-130 | a process that is neither Python nor Node.js by name is kept only while it listens on a port |
| Monitor.Keep | process_monitor.py:96-130 | a kept process has a readable executable path and working directory, listens on a port or names python or node, and its name contains python, node, npm, yarn, pnpm, deno or bun |
| Monitor.UnreadableNeverKept | process_monitor.py:28-130 | a process whose executable path or working directory raised an access error (so `get_process_info` returned None) is not kept, and removing it from the table leaves the selection unchanged |
| Monitor.KeptNeverSkipped | process_monitor.py:108-125 | a kept process has no skipped pattern in its command line, an empty command line included |
| Monitor.ListedNeverSkipped | process_monitor.py:108-130 | no listed process has a skipped pattern in its command line |
| Monitor.DevCandidates | process_monitor.py:92-133 | the selection keeps exactly the target, not-skipped, readable processes with ports or a python/node name |
| Monitor.DevCandidatesAppend | process_monitor.py:93-130 | the selection handles processes one at a time, so the records keep the table order |
| Monitor.WithMemory | process_monitor.py:136 | the processes with one memory figure, all drawn from the input |
| Monitor.InsertByMemory | process_monitor.py:136 | an insertion step adds exactly one element to the multiset |
| Monitor.InsertNonIncreasing | process_monitor.py:136 | inserting into a list sorted largest first keeps it sorted |
| Monitor.InsertWithMemory | process_monitor.py:136 | the inserted process goes ahead of the other processes with its memory figure and leaves every other figure's order alone |
| Monitor.SortByMemory | process_monitor.py:136 | `sort(key=memory, reverse=True)`: the result is a permutation of the input, largest memory first |
| Monitor.SortStable | process_monitor.py:136 | the sort is stable: processes with equal memory keep their input order |
| Monitor.GetDevProcesses | process_monitor.py:89-137 | the result is sorted largest memory first, is a permutation of the selected records, keeps records with equal memory in table order, and holds exactly the records of the kept processes |
| Uptime.Measure | process_monitor.py:74-87 | the band is seconds below 60, minutes below 3600, hours below 86400, days above; the numbers shown are exact below an hour and truncations of the age above it |
| Uptime.ParseRender | process_monitor.py:74-87 | every rendered reading parses back to itself |
| Uptime.TwoNumbers | process_monitor.py:78-87 | a two-unit text reads back as its numbers and unit pair |
| Uptime.NumberThenUnit | process_monitor.py:76-87 | a rendered number followed by a unit letter splits back into the number and the rest |
| Uptime.FormatUptime | process_monitor.py:74-87 | the uptime text of an age reads back to the age's band and numbers, and it is the only text that does |
| Uptime.ParsedIsRendered | process_monitor.py:74-87 | every text the reader accepts is the rendering of what it reads, so no reading has two texts |
| Uptime.LeadingZeroRejected | process_monitor.py:76-77 | "05s" is not read as an age: `int` never writes a leading zero |
| Uptime.SplitNumber | process_monitor.py:76-87 | a leading digit run without a leading zero is the rendering of its value |
| Uptime.ParsedPair | process_monitor.py:78-87 | a two-unit reading renders as "<a><u> <b><v>" with its own unit letters |
| Uptime.ParseSecs | process_monitor.py:76-77 | a seconds text reads back as its number |
| Uptime.ParseMinSecs | process_monitor.py:78-80 | a minutes-and-seconds text reads back as its two numbers |
| Uptime.ParseHourMins | process_monitor.py:81-84 | an hours-and-minutes text reads back as its two numbers |
| Uptime.ParseDayHours | process_monitor.py:85-87 | a days-and-hours text reads back as its two numbers |
| Uptime.FormatUptimeExactBelowHour | process_monitor.py:74-79 | below an hour, different ages render differently |
| Strings.Basename | process_monitor.py:55-63 | `os.path.basename`: a suffix of the path with no '/', preceded by '/' when shorter than the path |
| Strings.Words | process_identifier.py:429 | argument-less `split()`: non-empty whitespace-free words that together hold exactly the text's non-whitespace characters, in order |
| Strings.WordsBlankPrefix | process_identifier.py:429 | leading whitespace adds no word |
| Strings.WordsCons | process_identifier.py:429 | a whitespace-free run ending at whitespace or at the end of the text is the next word, so the words are the maximal runs |
| Strings.TokenOfRun | process_identifier.py:429 | the word read at a whitespace-free run is that whole run |
| Strings.NonSpaceAppend | process_identifier.py:429 | the non-whitespace characters of a concatenation are those of each part, in order |
| Strings.SplitHead | process_identifier.py:466 | the first piece of `split(c)` is the prefix up to the first `c`, or the whole text |
| Strings.DecOfDecValue | process_monitor.py:76-87 | a digit string without a leading zero is `str` of its value |
| Strings.DecNoLeadingZero | process_monitor.py:76-87 | `str` of a natural number has no leading zero |
| Strings.DecLeading | process_monitor.py:76-87 | a positive number's text starts with a non-zero digit |
| Strings.DecValuePositive | process_monitor.py:76-87 | a digit string starting with a non-zero digit has a positive value |
| Strings.JoinHead | process_identifier.py:292 | `'/'.join` of several pieces starts with the first piece and the separator; of one piece it is that piece |

## Left out

- Operating-system access is not modelled: psutil, `proc.oneshot()` and the socket connection query. A process is a `Procs.RawProcess` value given to the model. The snapshot is a sequence of such values.
- An access error is modelled only where it changes a result, and only on the executable path and the working directory. A `None` executable path or working directory means that query raised an access error: the process identifier then works without that field (no home-tree test, no same-directory rule), and the monitor drops the process, since `get_process_info` returns None. An empty value is a value that was read, so the monitor shows "Unknown" for it. A `None` parent means `proc.parent()` reported no parent, and a `None` grandparent name means the parent has no parent of its own. An access error from `proc.parent()` is not modelled: `identify_process` records it like a missing parent, but `_find_related_processes` skips the candidate altogether (process_identifier.py:551, :608-609), which the model does not do. An access error from the parent's own `parent()` is not modelled either: it makes `_is_from_terminal` return False before the first-argument test (process_identifier.py:196-210). An access error or a vanished process on any other query (command line, memory, user name, create time) is not modelled: the model assumes those could be read.
- CPU and memory percentages, status, user name, thread count and start time are not modelled: they are copied from psutil, never decided on.
- Memory is modelled as an integer key. The source sorts by `rss / 1024 / 1024`, a float; dividing by a positive constant keeps the order, so sorting by the integer gives the same order.
- The age is modelled in whole seconds. `time.time() - create_time` is a float, and for a non-negative age every truncation `format_uptime` makes gives the same digits as on the integer part. Negative ages (clock skew) are not modelled.
- The five-second cache of `get_user_processes` is not modelled: it only replays an earlier result.
- `kill_process`, `get_all_processes_enhanced` and the web server in app.py are not part of this model.
- The `is_parent` flag in `_find_related_processes` is computed and never used, so it is not modelled.
- Case mapping and whitespace are ASCII-only. Python's `lower()`, `upper()`, `title()`, `split()` and `strip()` also act on non-ASCII characters, and process names are input, so a non-ASCII name can behave differently in the source (`lower()` maps U+212A KELVIN SIGN to 'k', so a name written with that sign can match a lower-case key or marker that the model's ASCII `Lower` does not). Non-ASCII process names, arguments and paths are outside the model.
- Monitor.ScriptName: the contract states the absent and base-name cases. The value is stated by lemmas: ModuleScriptName and PythonScriptName for Python processes, PythonNoScriptName when no argument stops the Python loop, NodeScriptName and NodeNoScriptName for Node.js and npm processes, and OtherNoScriptName for every other name.
- Classifier.NpmScriptName: the contract states the absent case and the shape of the name. NpmScriptAfterRun gives the value when the word after the first "run" contains no "run" itself. A command where a second "run" starts inside that word (`npm run prune`) is cut at the second "run", and that case is not characterised further.
- Monitor.InsertByMemory: its own contract states only the permutation. Order and stability are separate lemmas, InsertNonIncreasing and InsertWithMemory.

=== FILE: classifier.dfy ===
/** `_get_process_description`: the first-match-wins classifier that turns a
    process name, its argument vector and its working directory into a
    description, a display name, a category and a user-process flag.

    The rule order is the behaviour: the known-application table is tried
    first (and returns at once), then the command line decides between the
    Python, Node.js, Ruby, Docker, Git, database and editor branches, and
    finally a working directory under a home tree marks the result as a
    user process. */
module Classifier {
  import opened Options
  import opened Strings

  datatype Category =
    | System
    | UserProcess
    | DevelopmentTool
    | PythonApplication
    | NodeApplication
    | RubyApplication
    | Container
    | VersionControl
    | Database
    | DevelopmentIde
  {
    /** The category string the program stores. */
    function Label(): string {
      match this
      case System => "System"
      case UserProcess => "User Process"
      case DevelopmentTool => "Development Tool"
      case PythonApplication => "Python Application"
      case NodeApplication => "Node.js Application"
      case RubyApplication => "Ruby Application"
      case Container => "Container"
      case VersionControl => "Version Control"
      case Database => "Database"
      case DevelopmentIde => "Development IDE"
    }
  }

  datatype Description = Description(
    description: string,
    appName: string,
    category: Category,
    isUserProcess: bool)

  /** What an unrecognised process is described as. */
  function Default(name: string): Description {
    Description(name, name, System, false)
  }

  // ---------------------------------------------------------------------
  // The known-application table, tried in this order

  datatype KnownApp = KnownApp(key: string, text: string)

  const KnownApps: seq<KnownApp> := [
    KnownApp("uv", "UV Package Manager - Fast Python package installer"),
    KnownApp("pip", "Pip - Python package installer"),
    KnownApp("npm", "NPM - Node.js package manager"),
    KnownApp("yarn", "Yarn - JavaScript package manager"),
    KnownApp("pnpm", "PNPM - Fast, disk space efficient package manager"),
    KnownApp("cargo", "Cargo - Rust package manager"),
    KnownApp("brew", "Homebrew - macOS package manager"),
    KnownApp("webpack", "Webpack Dev Server - JavaScript bundler"),
    KnownApp("vite", "Vite Dev Server - Fast frontend build tool"),
    KnownApp("next", "Next.js Dev Server - React framework"),
    KnownApp("django", "Django Dev Server - Python web framework"),
    KnownApp("flask", "Flask Dev Server - Python micro framework"),
    KnownApp("rails", "Rails Server - Ruby web framework"),
    KnownApp("nodemon", "Nodemon - Node.js auto-restart tool"),
    KnownApp("postgres", "PostgreSQL Database Server"),
    KnownApp("mysql", "MySQL Database Server"),
    KnownApp("mongodb", "MongoDB NoSQL Database"),
    KnownApp("redis", "Redis In-Memory Data Store"),
    KnownApp("elasticsearch", "Elasticsearch Search Engine"),
    KnownApp("docker", "Docker Container Platform"),
    KnownApp("kubectl", "Kubernetes CLI"),
    KnownApp("terraform", "Terraform Infrastructure Tool"),
    KnownApp("git", "Git Version Control"),
    KnownApp("code", "Visual Studio Code"),
    KnownApp("vim", "Vim Text Editor"),
    KnownApp("nvim", "Neovim Text Editor"),
    KnownApp("emacs", "Emacs Text Editor")
  ]

  /** Every key is a non-empty lower-case word. */
  lemma KnownKeysAreLowerWords()
    ensures forall i :: 0 <= i < |KnownApps| ==> |KnownApps[i].key| > 0 && IsLowerWord(KnownApps[i].key)
  {
  }

  /** The first table entry, from position `i` on, whose key occurs in the
      lower-cased name. */
  function KnownAppFrom(nameLower: string, i: nat): (r: Option<nat>)
    requires i <= |KnownApps|
    ensures r.Some? ==> i <= r.value < |KnownApps| && Contains(nameLower, KnownApps[r.value].key)
    ensures r.Some? ==> forall j :: i <= j < r.value ==> !Contains(nameLower, KnownApps[j].key)
    ensures r.None? ==> forall j :: i <= j < |KnownApps| ==> !Contains(nameLower, KnownApps[j].key)
    decreases |KnownApps| - i
  {
    if i == |KnownApps| then None
    else if Contains(nameLower, KnownApps[i].key) then Some(i)
    else KnownAppFrom(nameLower, i + 1)
  }

  function KnownAppIndex(nameLower: string): Option<nat> {
    KnownAppFrom(nameLower, 0)
  }

  function KnownAppDescription(i: nat): Description
    requires i < |KnownApps|
  {
    Description(KnownApps[i].text, Title(KnownApps[i].key), DevelopmentTool, true)
  }

  // ---------------------------------------------------------------------
  // Command-line branches

  datatype Branch = PythonBranch | NodeBranch | RubyBranch | DockerBranch | GitBranch | DatabaseBranch | IdeBranch | NoBranch

  const DatabaseMarkers: seq<string> := ["postgres", "mysql", "mongodb", "redis"]
  const IdeMarkers: seq<string> := ["code", "vscode", "vim", "nvim", "emacs", "sublime", "atom"]

  /** Which branch of the command-line analysis runs. */
  function SelectBranch(nameLower: string, cmdLower: string): (r: Branch)
    ensures r == PythonBranch <==> Contains(nameLower, "python") || Contains(cmdLower, "python")
    ensures r == NoBranch <==>
      !Contains(nameLower, "python") && !Contains(cmdLower, "python")
      && !Contains(nameLower, "node") && !Contains(cmdLower, "node")
      && !Contains(nameLower, "ruby") && !Contains(cmdLower, "ruby")
      && !Contains(cmdLower, "docker") && !Contains(cmdLower, "git")
      && !AnyContains(cmdLower, DatabaseMarkers) && !AnyContains(cmdLower, IdeMarkers)
  {
    if Contains(nameLower, "python") || Contains(cmdLower, "python") then PythonBranch
    else if Contains(nameLower, "node") || Contains(cmdLower, "node") then NodeBranch
    else if Contains(nameLower, "ruby") || Contains(cmdLower, "ruby") then RubyBranch
    else if Contains(cmdLower, "docker") then DockerBranch
    else if Contains(cmdLower, "git") then GitBranch
    else if AnyContains(cmdLower, DatabaseMarkers) then DatabaseBranch
    else if AnyContains(cmdLower, IdeMarkers) then IdeBranch
    else NoBranch
  }

  /** Python's `os.path.basename(arg).replace(ext, '')`. */
  function StripExtension(arg: string, ext: string): string
    requires |ext| > 0
  {
    ReplaceAll(Basename(arg), ext, "")
  }

  /** The path from the first of Documents, GitHub or Projects (tried in that
      order) that is a component of the split path. */
  function RelativeToKnownFolder(parts: seq<string>): (r: Option<string>)
    ensures r.None? <==> "Documents" !in parts && "GitHub" !in parts && "Projects" !in parts
    ensures "Documents" in parts ==> StartsWith(r.value, "Documents/") || r.value == "Documents"
    ensures "Documents" !in parts && "GitHub" in parts ==> StartsWith(r.value, "GitHub/") || r.value == "GitHub"
    ensures "Documents" !in parts && "GitHub" !in parts && "Projects" in parts ==>
      StartsWith(r.value, "Projects/") || r.value == "Projects"
  {
    match IndexOf(parts, "Documents")
    case Some(i) => JoinHead(parts[i..], "/"); Some(Join(parts[i..], "/"))
    case None =>
      match IndexOf(parts, "GitHub")
      case Some(i) => JoinHead(parts[i..], "/"); Some(Join(parts[i..], "/"))
      case None =>
        match IndexOf(parts, "Projects")
        case Some(i) => JoinHead(parts[i..], "/"); Some(Join(parts[i..], "/"))
        case None => None
  }

  predicate UnderHome(path: string) {
    Contains(path, "/Users/") || Contains(path, "/home/")
  }

  // --- Python

  predicate IsPyScript(arg: string) {
    EndsWith(arg, ".py")
  }

  predicate IsStreamlitScript(arg: string) {
    EndsWith(arg, ".py") && !Contains(Lower(arg), "streamlit")
  }

  /** `r` is `open + dir + close` for one non-empty directory name `dir`
      (no '/' in it). */
  predicate NamesOneDir(r: string, open: string, close: string) {
    |open| + |close| < |r| && StartsWith(r, open) && EndsWith(r, close)
    && '/' !in r[|open|..|r| - |close|]
  }

  /** A directory name in parentheses, as both script contexts write it. */
  function Parenthesised(dir: string): (r: string)
    requires dir != "" && '/' !in dir
    ensures NamesOneDir(r, " (", ")") && r[2..|r| - 1] == dir
  {
    var r := " (" + dir + ")";
    assert r[2..|r| - 1] == dir;
    r
  }

  /** The " (project)" suffix of a Python script description: the working
      directory's name unless it is the script's own name, else the parent's
      name unless that is Users or home; nothing without a directory. */
  function ScriptContext(cwd: Option<string>, scriptName: string): (r: string)
    ensures r == "" || NamesOneDir(r, " (", ")")
    ensures cwd.None? ==> r == ""
    ensures cwd.Some? && Basename(cwd.value) !in ["", scriptName] ==> r == " (" + Basename(cwd.value) + ")"
    ensures r != "" && cwd.Some? && Basename(cwd.value) in ["", scriptName] ==>
      r == " (" + Basename(Dirname(cwd.value)) + ")" && Basename(Dirname(cwd.value)) !in ["Users", "home"]
  {
    match cwd
    case None => ""
    case Some(c) =>
      if c == "" then ""
      else
        var project := Basename(c);
        if project != "" && project != scriptName then Parenthesised(project)
        else
          var parentDir := Basename(Dirname(c));
          if parentDir !in ["Users", "home", ""] then Parenthesised(parentDir) else ""
  }

  /** The description of a Python script: a label and the script's name with
      its context, or, for a plain script under a home directory, the path
      from a known folder. The first matching rule wins, so "app.py" in the
      path beats any word in the script's name. */
  function PythonScriptText(arg: string, scriptName: string, context: string): (r: string)
    ensures EndsWith(r, scriptName + context)
      || (UnderHome(arg) && RelativeToKnownFolder(Split(arg, '/')).Some?
          && r == "Python: " + RelativeToKnownFolder(Split(arg, '/')).value)
    ensures Contains(arg, "app.py") ==> r == "Flask/Web App: " + scriptName + context
    ensures !UnderHome(arg) || RelativeToKnownFolder(Split(arg, '/')).None? ==> EndsWith(r, scriptName + context)
  {
    var tail := scriptName + context;
    var low := Lower(scriptName);
    if Contains(arg, "app.py") then "Flask/Web App: " + tail
    else if Contains(arg, "manage.py") then "Django App: " + tail
    else if Contains(arg, "setup.py") then "Python Setup: " + tail
    else if Contains(low, "server") then "Python Server: " + tail
    else if Contains(low, "api") then "API Server: " + tail
    else if Contains(low, "main") then "Main App: " + tail
    else if Contains(low, "test") then "Test Runner: " + tail
    else if Contains(low, "worker") then "Worker Process: " + tail
    else if UnderHome(arg) then
      match RelativeToKnownFolder(Split(arg, '/'))
      case Some(rel) => "Python: " + rel
      case None => "Python: " + tail
    else "Python: " + tail
  }

  /** The first `.py` argument names the application: its base name without
      ".py" is the display name, and the description is the script text for
      it. Without a `.py` argument nothing changes. */
  function WithPythonScript(d: Description, argv: seq<string>, cwd: Option<string>): (r: Description)
    ensures r.category == d.category && r.isUserProcess == d.isUserProcess
    ensures NoneSatisfy(argv, IsPyScript) ==> r == d
    ensures forall i :: IsFirst(argv, IsPyScript, i) ==>
      r.appName == StripExtension(argv[i], ".py")
      && r.description == PythonScriptText(argv[i], r.appName, ScriptContext(cwd, r.appName))
  {
    match FirstWhere(argv, IsPyScript)
    case None => d
    case Some(i) =>
      var scriptName := StripExtension(argv[i], ".py");
      d.(appName := scriptName, description := PythonScriptText(argv[i], scriptName, ScriptContext(cwd, scriptName)))
  }

  /** The " in project" suffix of a `python -m` description: the working
      directory's name unless it is empty, Users or home. */
  function ModuleContext(cwd: Option<string>): (r: string)
    ensures r == "" || (NamesOneDir(r, " in ", "") && r[4..] !in ["Users", "home"])
    ensures r != "" <==> cwd.Some? && Basename(cwd.value) !in ["", "Users", "home"]
    ensures r != "" ==> r == " in " + Basename(cwd.value)
  {
    match cwd
    case None => ""
    case Some(c) =>
      if c == "" then ""
      else
        var project := Basename(c);
        if project != "" && project !in ["Users", "home"] then " in " + project else ""
  }

  /** The modules run with `python -m` that have a fixed description, the
      module name compared exactly. */
  const PythonModules: seq<KnownApp> := [
    KnownApp("http.server", "Python HTTP Server"),
    KnownApp("flask", "Flask Dev Server"),
    KnownApp("django", "Django Server"),
    KnownApp("pytest", "PyTest Runner"),
    KnownApp("unittest", "Unit Tests"),
    KnownApp("pip", "Pip Package Manager"),
    KnownApp("venv", "Virtual Environment"),
    KnownApp("jupyter", "Jupyter Notebook"),
    KnownApp("ipython", "IPython Shell")
  ]

  /** The table entry, from position `i` on, for the module. */
  function PythonModuleFrom(moduleName: string, i: nat): (r: Option<nat>)
    requires i <= |PythonModules|
    ensures r.Some? ==> i <= r.value < |PythonModules| && PythonModules[r.value].key == moduleName
    ensures r.None? ==> forall j :: i <= j < |PythonModules| ==> PythonModules[j].key != moduleName
    decreases |PythonModules| - i
  {
    if i == |PythonModules| then None
    else if PythonModules[i].key == moduleName then Some(i)
    else PythonModuleFrom(moduleName, i + 1)
  }

  /** No module is listed twice, no text is used twice, and no fixed text
      reads like the generic one. */
  lemma PythonModulesDistinct()
    ensures forall i, j :: 0 <= i < j < |PythonModules| ==> PythonModules[i].key != PythonModules[j].key
    ensures forall i, j :: 0 <= i < j < |PythonModules| ==> PythonModules[i].text != PythonModules[j].text
    ensures forall i :: 0 <= i < |PythonModules| ==> !StartsWith(PythonModules[i].text, "Python Module: ")
  {
    forall i | 0 <= i < |PythonModules|
      ensures !StartsWith(PythonModules[i].text, "Python Module: ")
    {
      assert |PythonModules[i].text| > 7 && PythonModules[i].text[7] != 'M';
      assert "Python Module: "[7] == 'M';
    }
  }

  /** A listed module's fixed text; any other module is named after the
      generic label. */
  function ModuleText(moduleName: string): (r: string)
    ensures forall i :: 0 <= i < |PythonModules| && PythonModules[i].key == moduleName ==> r == PythonModules[i].text
    ensures (forall i :: 0 <= i < |PythonModules| ==> PythonModules[i].key != moduleName) ==>
      r == "Python Module: " + moduleName
  {
    PythonModulesDistinct();
    match PythonModuleFrom(moduleName, 0)
    case Some(i) => PythonModules[i].text
    case None => "Python Module: " + moduleName
  }

  /** Different modules get different texts: the description names the
      module it was made for. */
  lemma ModuleTextInjective(a: string, b: string)
    requires ModuleText(a) == ModuleText(b)
    ensures a == b
  {
    PythonModulesDistinct();
    var generic := "Python Module: ";
    var ia := PythonModuleFrom(a, 0);
    var ib := PythonModuleFrom(b, 0);
    if ia.Some? && ib.Some? {
      assert PythonModules[ia.value].text == PythonModules[ib.value].text;
    } else if ia.Some? || ib.Some? {
      // a fixed text never reads like the generic one
      assert false;
    } else {
      assert a == (generic + a)[|generic|..] && b == (generic + b)[|generic|..];
    }
  }


  /** The argument after the first `-m` (`cmdline.index('-m') + 1`), when
      the first `-m` is not the last argument. */
  function ModuleArg(argv: seq<string>): (r: Option<string>)
    ensures "-m" !in argv ==> r.None?
    ensures forall idx :: 0 <= idx < |argv| && argv[idx] == "-m" && "-m" !in argv[..idx] ==>
      r == if idx + 1 < |argv| then Some(argv[idx + 1]) else None
  {
    match IndexOf(argv, "-m")
    case None => None
    case Some(idx) =>
      if idx + 1 < |argv| then Some(argv[idx + 1]) else None
  }

  /** The argument after the first `-m`, when there is one, names the
      application instead: it is the display name, and the description is the
      module's text and the directory context. */
  function WithPythonModule(d: Description, argv: seq<string>, cwd: Option<string>): (r: Description)
    ensures r.category == d.category && r.isUserProcess == d.isUserProcess
    ensures ModuleArg(argv).None? ==> r == d
    ensures ModuleArg(argv).Some? ==>
      r.appName == ModuleArg(argv).value && r.description == ModuleText(ModuleArg(argv).value) + ModuleContext(cwd)
  {
    match ModuleArg(argv)
    case None => d
    case Some(m) => d.(appName := m, description := ModuleText(m) + ModuleContext(cwd))
  }

  /** A command mentioning streamlit is a Streamlit application, described
      by its first `.py` argument that does not itself mention streamlit. */
  function WithStreamlit(d: Description, argv: seq<string>, cmdLower: string): (r: Description)
    ensures r.category == d.category && r.isUserProcess == d.isUserProcess
    ensures !Contains(cmdLower, "streamlit") ==> r == d
    ensures Contains(cmdLower, "streamlit") ==> r.appName == "Streamlit"
    ensures Contains(cmdLower, "streamlit") && NoneSatisfy(argv, IsStreamlitScript) ==>
      r.description == "Streamlit Application"
    ensures Contains(cmdLower, "streamlit") ==> forall i :: IsFirst(argv, IsStreamlitScript, i) ==>
      r.description == "Streamlit App: " + StripExtension(argv[i], ".py")
  {
    if !Contains(cmdLower, "streamlit") then d
    else
      match FirstWhere(argv, IsStreamlitScript)
      case Some(i) => d.(appName := "Streamlit", description := "Streamlit App: " + StripExtension(argv[i], ".py"))
      case None => d.(appName := "Streamlit", description := "Streamlit Application")
  }

  const VirtualEnvSuffix: string := " (Virtual Environment)"

  /** The virtual-environment markers, tested on the command as written
      (case-sensitively). */
  predicate MentionsVirtualEnv(cmd: string) {
    Contains(cmd, ".venv") || Contains(cmd, "virtualenv") || Contains(cmd, "pipenv")
  }

  /** The suffix a virtual-environment marker adds to a Python description. */
  function VenvSuffix(cmd: string): string {
    if MentionsVirtualEnv(cmd) then VirtualEnvSuffix else ""
  }

  /** The Python branch. Each later rule overrides the earlier ones, so the
      display name comes from streamlit if the command mentions it, else from
      the first `-m` module, else from the first `.py` script, else it is the
      process name; a virtual-environment marker then suffixes the
      description. */
  function DescribePython(name: string, argv: seq<string>, cwd: Option<string>): (r: Description)
    ensures r.category == PythonApplication && r.isUserProcess
    ensures MentionsVirtualEnv(Join(argv, " ")) ==> EndsWith(r.description, VirtualEnvSuffix)
    ensures Contains(Lower(Join(argv, " ")), "streamlit") ==> r.appName == "Streamlit"
    ensures Contains(Lower(Join(argv, " ")), "streamlit") && NoneSatisfy(argv, IsStreamlitScript) ==>
      r.description == "Streamlit Application" + VenvSuffix(Join(argv, " "))
    ensures Contains(Lower(Join(argv, " ")), "streamlit") ==> forall i :: IsFirst(argv, IsStreamlitScript, i) ==>
      r.description == "Streamlit App: " + StripExtension(argv[i], ".py") + VenvSuffix(Join(argv, " "))
    ensures !Contains(Lower(Join(argv, " ")), "streamlit") && ModuleArg(argv).Some? ==>
      r.appName == ModuleArg(argv).value
      && r.description == ModuleText(ModuleArg(argv).value) + ModuleContext(cwd) + VenvSuffix(Join(argv, " "))
    ensures !Contains(Lower(Join(argv, " ")), "streamlit") && ModuleArg(argv).None? ==>
      forall i :: IsFirst(argv, IsPyScript, i) ==>
        r.appName == StripExtension(argv[i], ".py")
        && r.description == PythonScriptText(argv[i], r.appName, ScriptContext(cwd, r.appName)) + VenvSuffix(Join(argv, " "))
    ensures !Contains(Lower(Join(argv, " ")), "streamlit") && ModuleArg(argv).None? && NoneSatisfy(argv, IsPyScript) ==>
      r.appName == name && r.description == name + VenvSuffix(Join(argv, " "))
  {
    var cmd := Join(argv, " ");
    var d := Description(name, name, PythonApplication, true);
    var d := WithPythonScript(d, argv, cwd);
    var d := WithPythonModule(d, argv, cwd);
    var d := WithStreamlit(d, argv, Lower(cmd));
    d.(description := d.description + VenvSuffix(cmd))
  }

  // --- Node.js

  predicate IsJsOrTsScript(arg: string) {
    EndsWith(arg, ".js") || EndsWith(arg, ".ts")
  }

  /** The " (project)" suffix of a Node.js description; a directory named
      node, src or dist (or ending in '/') defers to its parent, and Users
      or home are never named. */
  function NodeContext(cwd: Option<string>): (r: string)
    ensures r == "" || (NamesOneDir(r, " (", ")") && r[2..|r| - 1] !in ["Users", "home"])
    ensures cwd.None? ==> r == ""
    ensures cwd.Some? && Basename(cwd.value) !in ["", "node", "src", "dist", "Users", "home"] ==>
      r == " (" + Basename(cwd.value) + ")"
    ensures cwd.Some? && Basename(cwd.value) in ["", "node", "src", "dist"] ==>
      r == "" || r == " (" + Basename(Dirname(cwd.value)) + ")"
  {
    match cwd
    case None => ""
    case Some(c) =>
      if c == "" then ""
      else
        var base := Basename(c);
        var project := if base == "" || base in ["node", "src", "dist"] then Basename(Dirname(c)) else base;
        if project != "" && project !in ["Users", "home"] then Parenthesised(project) else ""
  }

  /** The description of a Node.js script: a label and the script's name
      with its context, or, for a plain script under a home directory and
      outside node_modules, the path from a known folder. */
  function NodeScriptText(arg: string, scriptName: string, context: string): (r: string)
    ensures EndsWith(r, scriptName + context)
      || (UnderHome(arg) && "node_modules" !in Split(arg, '/') && RelativeToKnownFolder(Split(arg, '/')).Some?
          && r == "Node: " + RelativeToKnownFolder(Split(arg, '/')).value)
    ensures Contains(Lower(scriptName), "server") ==> r == "Node Server: " + scriptName + context
    ensures "node_modules" in Split(arg, '/') ==> EndsWith(r, scriptName + context)
  {
    var tail := scriptName + context;
    var low := Lower(scriptName);
    if Contains(low, "server") then "Node Server: " + tail
    else if Contains(low, "index") then "Node App: " + tail
    else if Contains(low, "api") then "Node API: " + tail
    else if Contains(low, "worker") then "Node Worker: " + tail
    else if UnderHome(arg) then
      var parts := Split(arg, '/');
      if "node_modules" in parts then "Node Package: " + tail
      else
        match RelativeToKnownFolder(parts)
        case Some(rel) => "Node: " + rel
        case None => "Node: " + tail
    else "Node: " + tail
  }

  /** The script name of `npm run <script>`: the first word between the
      first "run" of the command and the next one. */
  function NpmScriptName(cmd: string): (r: Option<string>)
    ensures Find(cmd, "run", 0).None? ==> r.None?
    ensures r.Some? ==> |r.value| > 0 && forall i :: 0 <= i < |r.value| ==> !IsSpace(r.value[i])
  {
    match Find(cmd, "run", 0)
    case None => None
    case Some(k) =>
      var words := Words(UpToNextRun(cmd[k + 3..]));
      if |words| > 0 then Some(words[0]) else None
  }

  /** The text before the next "run" (`split('run')[0]`). */
  function UpToNextRun(rest: string): (r: string)
    ensures StartsWith(rest, r)
    ensures forall j: nat :: j < |r| ==> !OccursAt(rest, "run", j)
    ensures |r| == |rest| || OccursAt(rest, "run", |r|)
  {
    match Find(rest, "run", 0) case None => rest case Some(m) => rest[..m]
  }

  /** The script name is the word that follows the first "run" after
      optional whitespace, provided no other "run" starts before that word
      ends. */
  lemma NpmScriptAfterRun(pre: string, blank: string, word: string, post: string)
    requires forall j: nat :: j < |pre| ==> !OccursAt(pre + "run" + blank + word + post, "run", j)
    requires forall i :: 0 <= i < |blank| ==> IsSpace(blank[i])
    requires |word| > 0 && forall i :: 0 <= i < |word| ==> !IsSpace(word[i])
    requires |post| == 0 || IsSpace(post[0])
    requires forall j: nat :: j < |blank| + |word| ==> !OccursAt(blank + word + post, "run", j)
    ensures Contains(pre + "run" + blank + word + post, "run")
    ensures NpmScriptName(pre + "run" + blank + word + post) == Some(word)
  {
    var rest := blank + word + post;
    var head := pre + "run";
    var cmd := head + rest;
    assert cmd == pre + "run" + blank + word + post;
    assert cmd[|pre|..|pre| + 3] == head[|pre|..] == "run";
    ContainsFromOccurrence(cmd, "run", |pre|);
    FindFirst(cmd, "run", |pre|);
    assert cmd[|head|..] == rest;
    FirstWordBeforeRun(blank, word, post);
  }

  lemma FirstWordBeforeRun(blank: string, word: string, post: string)
    requires forall i :: 0 <= i < |blank| ==> IsSpace(blank[i])
    requires |word| > 0 && forall i :: 0 <= i < |word| ==> !IsSpace(word[i])
    requires |post| == 0 || IsSpace(post[0])
    requires forall j: nat :: j < |blank| + |word| ==> !OccursAt(blank + word + post, "run", j)
    ensures var ws := Words(UpToNextRun(blank + word + post)); |ws| > 0 && ws[0] == word
  {
    var rest := blank + word + post;
    var piece := UpToNextRun(rest);
    var tail := match Find(rest, "run", 0) case None => post case Some(m) => post[..m - |blank| - |word|];
    assert piece == blank + (word + tail);
    assert |tail| == 0 || IsSpace(tail[0]);
    WordsBlankPrefix(blank, word + tail);
    WordsCons(word, tail);
  }

  /** `os.path.basename(arg).replace('.js', '').replace('.ts', '')`. */
  function NodeScriptBase(arg: string): string {
    ReplaceAll(StripExtension(arg, ".js"), ".ts", "")
  }

  /** An `npm ... run <script>` command, with its script name. */
  predicate IsNpmRun(cmd: string) {
    Contains(cmd, "npm") && Contains(cmd, "run") && NpmScriptName(cmd).Some?
  }

  /** The Node.js branch: an npm script, when the command runs one, names the
      application; otherwise the first `.js` or `.ts` argument does; otherwise
      the process name stands. */
  function DescribeNode(name: string, argv: seq<string>, cwd: Option<string>): (r: Description)
    ensures r.category == NodeApplication && r.isUserProcess
    ensures IsNpmRun(Join(argv, " ")) ==>
      r.appName == "npm:" + NpmScriptName(Join(argv, " ")).value
      && r.description == "NPM Script: " + NpmScriptName(Join(argv, " ")).value
    ensures !IsNpmRun(Join(argv, " ")) ==> forall i :: IsFirst(argv, IsJsOrTsScript, i) ==>
      r.appName == NodeScriptBase(argv[i]) && r.description == NodeScriptText(argv[i], r.appName, NodeContext(cwd))
    ensures !IsNpmRun(Join(argv, " ")) && NoneSatisfy(argv, IsJsOrTsScript) ==> r.appName == name && r.description == name
  {
    var cmd := Join(argv, " ");
    var d := Description(name, name, NodeApplication, true);
    var d :=
      match FirstWhere(argv, IsJsOrTsScript)
      case None => d
      case Some(i) =>
        var scriptName := NodeScriptBase(argv[i]);
        d.(appName := scriptName, description := NodeScriptText(argv[i], scriptName, NodeContext(cwd)));
    if Contains(cmd, "npm") && Contains(cmd, "run") then
      match NpmScriptName(cmd)
      case Some(script) => d.(appName := "npm:" + script, description := "NPM Script: " + script)
      case None => d
    else d
  }
  /** `npm run <script>` makes the script the display name. */
  lemma NpmRunNamesNodeApp(name: string, argv: seq<string>, cwd: Option<string>,
                           pre: string, blank: string, word: string, post: string)
    requires Join(argv, " ") == pre + "run" + blank + word + post
    requires Contains(pre + "run" + blank + word + post, "npm")
    requires forall j: nat :: j < |pre| ==> !OccursAt(pre + "run" + blank + word + post, "run", j)
    requires forall i :: 0 <= i < |blank| ==> IsSpace(blank[i])
    requires |word| > 0 && forall i :: 0 <= i < |word| ==> !IsSpace(word[i])
    requires |post| == 0 || IsSpace(post[0])
    requires forall j: nat :: j < |blank| + |word| ==> !OccursAt(blank + word + post, "run", j)
    ensures DescribeNode(name, argv, cwd).appName == "npm:" + word
    ensures DescribeNode(name, argv, cwd).description == "NPM Script: " + word
  {
    NpmScriptAfterRun(pre, blank, word, post);
  }



  // --- Ruby, Docker, Git, databases, editors

  predicate IsRubyScript(arg: string) {
    EndsWith(arg, ".rb")
  }

  /** The Ruby branch: rails, then bundle, then the first `.rb` script
      names the application, tested on the command as written. */
  function DescribeRuby(name: string, argv: seq<string>): (r: Description)
    ensures r.category == RubyApplication && r.isUserProcess
    ensures Contains(Join(argv, " "), "rails") ==>
      r.appName == "Rails Server" && r.description == "Ruby on Rails Application"
    ensures !Contains(Join(argv, " "), "rails") && Contains(Join(argv, " "), "bundle") ==>
      r.appName == "Bundler" && r.description == "Ruby Bundler Process"
    ensures !Contains(Join(argv, " "), "rails") && !Contains(Join(argv, " "), "bundle") ==>
      forall i :: IsFirst(argv, IsRubyScript, i) ==>
        r.appName == StripExtension(argv[i], ".rb") && r.description == "Ruby Script: " + r.appName
    ensures !Contains(Join(argv, " "), "rails") && !Contains(Join(argv, " "), "bundle") && NoneSatisfy(argv, IsRubyScript) ==>
      r.appName == name && r.description == name
  {
    var cmd := Join(argv, " ");
    var d := Description(name, name, RubyApplication, true);
    if Contains(cmd, "rails") then d.(appName := "Rails Server", description := "Ruby on Rails Application")
    else if Contains(cmd, "bundle") then d.(appName := "Bundler", description := "Ruby Bundler Process")
    else
      match FirstWhere(argv, IsRubyScript)
      case None => d
      case Some(i) =>
        var scriptName := StripExtension(argv[i], ".rb");
        d.(appName := scriptName, description := "Ruby Script: " + scriptName)
  }

  /** `token.split('/')[-1].split(':')[0]`: the image name without registry
      path or tag. */
  function ImageName(token: string): (r: string)
    ensures '/' !in r && ':' !in r
    ensures StartsWith(Basename(token), r)
    ensures |r| == |Basename(token)| || Basename(token)[|r|] == ':'
  {
    SplitHead(Basename(token), ':');
    Split(Basename(token), ':')[0]
  }

  /** No piece of a split contains the separator, nor any character the
      split string lacks. */
  lemma {:induction false} SplitPiecesAvoid(s: string, c: char)
    ensures forall k :: 0 <= k < |Split(s, c)| ==> c !in Split(s, c)[k]
    ensures forall k, ch :: 0 <= k < |Split(s, c)| && ch in Split(s, c)[k] ==> ch in s
  {
    if |s| > 0 {
      SplitPiecesAvoid(s[1..], c);
      var rest := Split(s[1..], c);
      if s[0] != c {
        assert Split(s, c) == [[s[0]] + rest[0]] + rest[1..];
        forall k | 0 <= k < |Split(s, c)|
          ensures c !in Split(s, c)[k]
        {
          if k > 0 { assert Split(s, c)[k] == rest[k]; }
        }
        forall k, ch | 0 <= k < |Split(s, c)| && ch in Split(s, c)[k]
          ensures ch in s
        {
          if k > 0 {
            assert Split(s, c)[k] == rest[k];
          } else if ch != s[0] {
            assert ch in rest[0];
          }
          assert s == [s[0]] + s[1..];
        }
      } else {
        assert Split(s, c) == [""] + rest;
        forall k, ch | 0 <= k < |Split(s, c)| && ch in Split(s, c)[k]
          ensures ch in s
        {
          assert Split(s, c)[k] == rest[k - 1];
          assert s == [s[0]] + s[1..];
        }
      }
    }
  }

  predicate IsNotFlag(token: string) {
    !IsFlag(token)
  }

  /** The loop over the words of a `docker` command: at each "run" word that
      has a successor, the first following word that is not a flag names the
      image. The loop does not stop there, so a later "run" overrides an
      earlier one. */
  function ScanRun(tokens: seq<string>, i: nat, found: Option<string>): (r: Option<string>)
    requires i <= |tokens|
    ensures found.Some? ==> r.Some?
    ensures r != found ==> r.Some? && '/' !in r.value && ':' !in r.value
    decreases |tokens| - i
  {
    if i == |tokens| then found
    else ScanRun(tokens, i + 1, ScanStep(tokens, i, found))
  }

  /** One step of the loop: the image named after a "run" at position `i`,
      or what was found before. */
  function ScanStep(tokens: seq<string>, i: nat, found: Option<string>): Option<string>
    requires i < |tokens|
  {
    if tokens[i] == "run" && i + 1 < |tokens| then
      match FirstWhere(tokens[i + 1..], IsNotFlag)
      case Some(j) => Some(ImageName(tokens[i + 1 + j]))
      case None => found
    else found
  }

  /** The Docker branch: the image after the last "run" word that is
      followed by a non-flag word names the container; without one the
      display name is "Docker". */
  function DescribeDocker(name: string, argv: seq<string>): (r: Description)
    ensures r.category == Container && r.isUserProcess
    ensures (!Contains(Join(argv, " "), "run")
             || forall k :: 0 <= k < |Words(Join(argv, " "))| ==> !RunWithImage(Words(Join(argv, " ")), k)) ==>
      r.appName == "Docker" && r.description == name
    ensures Contains(Join(argv, " "), "run") ==>
      forall k :: IsLastRun(Words(Join(argv, " ")), k) ==>
        r.appName == "Docker: " + ImageAfter(Words(Join(argv, " ")), k)
        && r.description == "Docker Container: " + ImageAfter(Words(Join(argv, " ")), k)
  {
    var cmd := Join(argv, " ");
    var d := Description(name, "Docker", Container, true);
    DockerImageFromLastRun(Words(cmd));
    if Contains(cmd, "run") then
      match ScanRun(Words(cmd), 0, None)
      case Some(image) => d.(appName := "Docker: " + image, description := "Docker Container: " + image)
      case None => d
    else d
  }

  const GitOperations: seq<string> := ["clone", "pull", "push", "fetch", "merge", "rebase", "commit"]

  /** The Git branch: the first listed operation the command contains
      describes it. */
  function DescribeGit(name: string, argv: seq<string>): (r: Description)
    ensures r.category == VersionControl && r.isUserProcess && r.appName == "Git"
    ensures forall k ::
      (0 <= k < |GitOperations| && Contains(Join(argv, " "), GitOperations[k])
       && forall j :: 0 <= j < k ==> !Contains(Join(argv, " "), GitOperations[j])) ==>
      r.description == "Git: " + GitOperations[k] + " operation"
    ensures (forall k :: 0 <= k < |GitOperations| ==> !Contains(Join(argv, " "), GitOperations[k])) ==>
      r.description == "Git Operation"
  {
    var cmd := Join(argv, " ");
    var d := Description(name, "Git", VersionControl, true);
    match FirstWhere(GitOperations, op => Contains(cmd, op))
    case Some(k) => d.(description := "Git: " + GitOperations[k] + " operation")
    case None => d.(description := "Git Operation")
  }

  /** The database branch: PostgreSQL, MySQL, MongoDB and Redis, tested in
      that order on the lower-cased command. */
  function DescribeDatabase(name: string, cmdLower: string): (r: Description)
    ensures r.category == Database && r.isUserProcess
    ensures Contains(cmdLower, "postgres") ==>
      r.appName == "PostgreSQL" && r.description == "PostgreSQL Database Process"
    ensures !Contains(cmdLower, "postgres") && Contains(cmdLower, "mysql") ==>
      r.appName == "MySQL" && r.description == "MySQL Database Process"
    ensures (!Contains(cmdLower, "postgres") && !Contains(cmdLower, "mysql")
             && (Contains(cmdLower, "mongodb") || Contains(cmdLower, "mongod"))) ==>
      r.appName == "MongoDB" && r.description == "MongoDB Database Process"
    ensures (!Contains(cmdLower, "postgres") && !Contains(cmdLower, "mysql") && !Contains(cmdLower, "mongodb")
             && !Contains(cmdLower, "mongod") && Contains(cmdLower, "redis")) ==>
      r.appName == "Redis" && r.description == "Redis Server Process"
    ensures (!Contains(cmdLower, "postgres") && !Contains(cmdLower, "mysql") && !Contains(cmdLower, "mongodb")
             && !Contains(cmdLower, "mongod") && !Contains(cmdLower, "redis")) ==>
      r.appName == name && r.description == name
  {
    var d := Description(name, name, Database, true);
    if Contains(cmdLower, "postgres") then d.(appName := "PostgreSQL", description := "PostgreSQL Database Process")
    else if Contains(cmdLower, "mysql") then d.(appName := "MySQL", description := "MySQL Database Process")
    else if Contains(cmdLower, "mongodb") || Contains(cmdLower, "mongod") then d.(appName := "MongoDB", description := "MongoDB Database Process")
    else if Contains(cmdLower, "redis") then d.(appName := "Redis", description := "Redis Server Process")
    else d
  }

  /** The editor branch. Its "nvim" case is unreachable, because every
      command containing "nvim" contains "vim", which is tested first; so
      the only names it gives are VS Code, Vim, Emacs or the process name. */
  function DescribeIde(name: string, cmdLower: string): (r: Description)
    ensures r.category == DevelopmentIde && r.isUserProcess
    ensures r.appName in {"VS Code", "Vim", "Emacs", name}
    ensures r.description in {"Visual Studio Code", "Vim Text Editor", "Emacs Text Editor", name}
  {
    NvimMentionsVim(cmdLower);
    var d := Description(name, name, DevelopmentIde, true);
    if Contains(cmdLower, "code") || Contains(cmdLower, "vscode") then d.(appName := "VS Code", description := "Visual Studio Code")
    else if Contains(cmdLower, "vim") then d.(appName := "Vim", description := "Vim Text Editor")
    else if Contains(cmdLower, "nvim") then d.(appName := "Neovim", description := "Neovim Text Editor")
    else if Contains(cmdLower, "emacs") then d.(appName := "Emacs", description := "Emacs Text Editor")
    else d
  }

  /** The category each branch assigns. */
  function BranchCategory(b: Branch): Category {
    match b
    case PythonBranch => PythonApplication
    case NodeBranch => NodeApplication
    case RubyBranch => RubyApplication
    case DockerBranch => Container
    case GitBranch => VersionControl
    case DatabaseBranch => Database
    case IdeBranch => DevelopmentIde
    case NoBranch => System
  }

  /** The command-line analysis, which runs only for a non-empty argument
      vector. */
  function DescribeCommand(name: string, argv: seq<string>, cwd: Option<string>): (r: Description)
    ensures |argv| == 0 ==> r == Default(name)
    ensures |argv| > 0 ==> r.category == BranchCategory(SelectBranch(Lower(name), Lower(Join(argv, " "))))
    ensures r.isUserProcess <==> r.category != System
  {
    if |argv| == 0 then Default(name)
    else
      var cmdLower := Lower(Join(argv, " "));
      match SelectBranch(Lower(name), cmdLower)
      case PythonBranch => DescribePython(name, argv, cwd)
      case NodeBranch => DescribeNode(name, argv, cwd)
      case RubyBranch => DescribeRuby(name, argv)
      case DockerBranch => DescribeDocker(name, argv)
      case GitBranch => DescribeGit(name, argv)
      case DatabaseBranch => DescribeDatabase(name, cmdLower)
      case IdeBranch => DescribeIde(name, cmdLower)
      case NoBranch => Default(name)
  }

  /** A working directory inside a home tree (`cwd and ('/Users/' in cwd or
      '/home/' in cwd)`). */
  predicate InHomeTree(cwd: Option<string>) {
    cwd.Some? && UnderHome(cwd.value)
  }

  /** The final working-directory rule. */
  function ApplyCwd(d: Description, cwd: Option<string>): (r: Description)
    ensures r.description == d.description && r.appName == d.appName
    ensures r.category == if InHomeTree(cwd) && d.category == System then UserProcess else d.category
    ensures r.isUserProcess == (d.isUserProcess || InHomeTree(cwd))
  {
    if InHomeTree(cwd) then
      d.(isUserProcess := true, category := if d.category == System then UserProcess else d.category)
    else d
  }

  /** `_get_process_description`. */
  function Describe(name: string, argv: seq<string>, cwd: Option<string>): (r: Description)
    ensures KnownAppIndex(Lower(name)).Some? ==> r.category == DevelopmentTool
    ensures r.isUserProcess <==> r.category != System
    ensures InHomeTree(cwd) ==> r.isUserProcess
    ensures r.category == UserProcess ==> InHomeTree(cwd)
  {
    match KnownAppIndex(Lower(name))
    case Some(i) => KnownAppDescription(i)
    case None => ApplyCwd(DescribeCommand(name, argv, cwd), cwd)
  }

  // ---------------------------------------------------------------------
  // Properties

  /** `w` occurs in the lower-cased name or the lower-cased command. */
  predicate Mentions(name: string, argv: seq<string>, w: string) {
    Contains(Lower(name), w) || CommandMentions(argv, w)
  }

  /** `w` occurs in the lower-cased command (`' '.join(cmdline).lower()`). */
  predicate CommandMentions(argv: seq<string>, w: string) {
    Contains(Lower(Join(argv, " ")), w)
  }

  /** No table key occurs in the lower-cased name. */
  predicate NoKnownApp(name: string) {
    KnownAppIndex(Lower(name)).None?
  }

  /** When a known-application key occurs in the lower-cased name, the first
      such key in table order decides the whole result: its text, its
      title-cased key (capitalised, and lower-casing back to the key), the
      Development Tool category and the user flag. The function returns
      before anything else is looked at, so neither the command line nor
      the working directory can change the result. */
  lemma KnownAppWins(name: string, argv: seq<string>, cwd: Option<string>, argv': seq<string>, cwd': Option<string>, i: nat)
    requires i < |KnownApps| && Contains(Lower(name), KnownApps[i].key)
    requires forall j :: 0 <= j < i ==> !Contains(Lower(name), KnownApps[j].key)
    ensures Describe(name, argv, cwd).description == KnownApps[i].text
    ensures Lower(Describe(name, argv, cwd).appName) == KnownApps[i].key
    ensures |Describe(name, argv, cwd).appName| > 0 && 'A' <= Describe(name, argv, cwd).appName[0] <= 'Z'
    ensures Describe(name, argv, cwd).appName == [UpperChar(KnownApps[i].key[0])] + KnownApps[i].key[1..]
    ensures Describe(name, argv, cwd).category == DevelopmentTool && Describe(name, argv, cwd).isUserProcess
    ensures Describe(name, argv, cwd) == Describe(name, argv', cwd')
  {
    var k := KnownAppIndex(Lower(name));
    assert k == Some(i);
    KnownKeyIsLowerWord(i);
    TitleOfLowerWord(KnownApps[i].key);
  }

  lemma KnownKeyIsLowerWord(i: nat)
    requires i < |KnownApps|
    ensures |KnownApps[i].key| > 0 && IsLowerWord(KnownApps[i].key)
  {
    KnownKeysAreLowerWords();
  }

  /** A process that matches no table key and no command-line branch keeps
      its own name as description and display name; it is a System process
      unless its working directory lies in a home tree, which makes it a
      User Process. */
  lemma UnrecognisedFallsToCwdRule(name: string, argv: seq<string>, cwd: Option<string>)
    requires NoKnownApp(name)
    requires |argv| == 0 || SelectBranch(Lower(name), Lower(Join(argv, " "))) == NoBranch
    ensures Describe(name, argv, cwd).description == name
    ensures Describe(name, argv, cwd).appName == name
    ensures Describe(name, argv, cwd).category == (if InHomeTree(cwd) then UserProcess else System)
    ensures Describe(name, argv, cwd).isUserProcess == InHomeTree(cwd)
  {
  }

  /** With no table key and a non-empty command, the category is the one
      of the selected branch; the working-directory rule only ever turns
      System into User Process. */
  lemma CategoryOfBranch(name: string, argv: seq<string>, cwd: Option<string>)
    requires NoKnownApp(name) && |argv| > 0
    ensures var b := SelectBranch(Lower(name), Lower(Join(argv, " ")));
      Describe(name, argv, cwd).category ==
        if b == NoBranch && InHomeTree(cwd) then UserProcess else BranchCategory(b)
  {
  }

  /** The branch order on the lower-cased name and command: "python" (in
      either) beats everything, then "node", then "ruby"; below them the
      command alone decides: "docker", then "git", then a database marker,
      then an editor marker. Together with `CategoryOfBranch` this fixes the
      category of every command. */
  lemma BranchOrder(nameLower: string, cmdLower: string)
    ensures Contains(nameLower, "python") || Contains(cmdLower, "python")
      ==> SelectBranch(nameLower, cmdLower) == PythonBranch
    ensures !(Contains(nameLower, "python") || Contains(cmdLower, "python"))
      && (Contains(nameLower, "node") || Contains(cmdLower, "node"))
      ==> SelectBranch(nameLower, cmdLower) == NodeBranch
    ensures !(Contains(nameLower, "python") || Contains(cmdLower, "python"))
      && !(Contains(nameLower, "node") || Contains(cmdLower, "node"))
      && (Contains(nameLower, "ruby") || Contains(cmdLower, "ruby"))
      ==> SelectBranch(nameLower, cmdLower) == RubyBranch
    ensures SelectBranch(nameLower, cmdLower) in {DockerBranch, GitBranch, DatabaseBranch, IdeBranch, NoBranch} <==>
      !Contains(nameLower, "python") && !Contains(cmdLower, "python")
      && !Contains(nameLower, "node") && !Contains(cmdLower, "node")
      && !Contains(nameLower, "ruby") && !Contains(cmdLower, "ruby")
    ensures SelectBranch(nameLower, cmdLower) in {DockerBranch, GitBranch, DatabaseBranch, IdeBranch, NoBranch} ==>
      (SelectBranch(nameLower, cmdLower) == DockerBranch <==> Contains(cmdLower, "docker"))
    ensures SelectBranch(nameLower, cmdLower) in {GitBranch, DatabaseBranch, IdeBranch, NoBranch} ==>
      (SelectBranch(nameLower, cmdLower) == GitBranch <==> Contains(cmdLower, "git"))
    ensures SelectBranch(nameLower, cmdLower) in {DatabaseBranch, IdeBranch, NoBranch} ==>
      (SelectBranch(nameLower, cmdLower) == DatabaseBranch <==> AnyContains(cmdLower, DatabaseMarkers))
    ensures SelectBranch(nameLower, cmdLower) in {IdeBranch, NoBranch} ==>
      (SelectBranch(nameLower, cmdLower) == IdeBranch <==> AnyContains(cmdLower, IdeMarkers))
  {
  }

  /** A command naming Python (with no table key in the name) is a Python
      Application, whatever else it mentions. */
  lemma PythonWins(name: string, argv: seq<string>, cwd: Option<string>)
    requires NoKnownApp(name) && |argv| > 0 && Mentions(name, argv, "python")
    ensures Describe(name, argv, cwd).category == PythonApplication
  {
    BranchOrder(Lower(name), Lower(Join(argv, " ")));
    CategoryOfBranch(name, argv, cwd);
  }

  /** Without a command line no branch runs: even a name containing
      "python" is described as the default. */
  lemma EmptyCommandIsUnclassified(name: string, cwd: Option<string>)
    requires NoKnownApp(name)
    ensures Describe(name, [], cwd).category in {System, UserProcess}
    ensures Describe(name, [], cwd).appName == name
  {
    UnrecognisedFallsToCwdRule(name, [], cwd);
  }


  /** When the Python branch runs, the result carries its description and
      display name through the working-directory rule; so a command that
      mentions .venv, virtualenv or pipenv (case-sensitively, on the command
      as written) ends its description with " (Virtual Environment)". */
  lemma PythonResult(name: string, argv: seq<string>, cwd: Option<string>)
    requires NoKnownApp(name) && |argv| > 0
    requires SelectBranch(Lower(name), Lower(Join(argv, " "))) == PythonBranch
    ensures Describe(name, argv, cwd).description == DescribePython(name, argv, cwd).description
    ensures Describe(name, argv, cwd).appName == DescribePython(name, argv, cwd).appName
    ensures MentionsVirtualEnv(Join(argv, " ")) ==> EndsWith(Describe(name, argv, cwd).description, VirtualEnvSuffix)
  {
  }

  /** A working directory in a home tree always yields a user process, never
      a System one. */
  lemma HomeTreeIsUserProcess(name: string, argv: seq<string>, cwd: Option<string>)
    ensures InHomeTree(cwd) ==> Describe(name, argv, cwd).isUserProcess && Describe(name, argv, cwd).category != System
  {
  }

  /** A Version Control result is always named "Git". */
  lemma VersionControlIsGit(name: string, argv: seq<string>, cwd: Option<string>)
    ensures Describe(name, argv, cwd).category == VersionControl ==> Describe(name, argv, cwd).appName == "Git"
  {
  }

  /** Every command containing "nvim" also contains "vim". */
  lemma NvimMentionsVim(s: string)
    ensures Contains(s, "nvim") ==> Contains(s, "vim")
  {
    if Contains(s, "nvim") {
      assert Contains("nvim", "vim");
      ContainsTransitive(s, "nvim", "vim");
    }
  }

  /** The editor branch never names "Neovim": it tests "vim" before
      "nvim", and a name that is literally "Neovim" (or "Neovim Text
      Editor") already matches the table's "vim" key. */
  lemma IdeNeverNeovim(name: string, argv: seq<string>, cwd: Option<string>)
    ensures Describe(name, argv, cwd).category == DevelopmentIde ==>
      Describe(name, argv, cwd).appName != "Neovim" && Describe(name, argv, cwd).description != "Neovim Text Editor"
  {
    if Describe(name, argv, cwd).category == DevelopmentIde {
      var cmdLower := Lower(Join(argv, " "));
      BranchOfCategory(name, argv, cwd);
      EditorResult(name, argv, cwd);
      if name == "Neovim" || name == "Neovim Text Editor" {
        NeovimNameIsKnown(name);
      }
    }
  }

  /** Only the editor branch gives a Development IDE result. */
  lemma BranchOfCategory(name: string, argv: seq<string>, cwd: Option<string>)
    requires Describe(name, argv, cwd).category == DevelopmentIde
    ensures NoKnownApp(name) && |argv| > 0
    ensures SelectBranch(Lower(name), Lower(Join(argv, " "))) == IdeBranch
  {
    if |argv| > 0 && NoKnownApp(name) {
      CategoryOfBranch(name, argv, cwd);
    }
  }

  /** The editor branch's result passes the working-directory rule
      unchanged. */
  lemma EditorResult(name: string, argv: seq<string>, cwd: Option<string>)
    requires NoKnownApp(name) && |argv| > 0
    requires SelectBranch(Lower(name), Lower(Join(argv, " "))) == IdeBranch
    ensures Describe(name, argv, cwd) == DescribeIde(name, Lower(Join(argv, " ")))
  {
  }

  /** A process literally named "Neovim" is caught by the table's "vim" key. */
  lemma NeovimNameIsKnown(name: string)
    requires name == "Neovim" || name == "Neovim Text Editor"
    ensures !NoKnownApp(name)
  {
    var n := Lower(name);
    assert n[3..6] == "vim";
    ContainsFromOccurrence(n, "vim", 3);
    VimMakesKnown(n);
  }

  /** A name containing "vim" is caught by entry 24. */
  lemma VimMakesKnown(nameLower: string)
    requires Contains(nameLower, "vim")
    ensures KnownAppIndex(nameLower).Some?
  {
    KeyMakesKnown(nameLower, 24);
  }

  /** A name containing any key of the table is a known application. */
  lemma KeyMakesKnown(nameLower: string, k: nat)
    requires k < |KnownApps| && Contains(nameLower, KnownApps[k].key)
    ensures KnownAppIndex(nameLower).Some?
  {
  }

  /** The table's "nvim" entry is shadowed by the earlier "vim" entry, so no
      known application is ever named "Nvim". */
  lemma KnownAppNeverNvim(name: string, argv: seq<string>, cwd: Option<string>)
    ensures Describe(name, argv, cwd).category == DevelopmentTool ==> Describe(name, argv, cwd).appName != "Nvim"
  {
    var n := Lower(name);
    match KnownAppIndex(n)
    case Some(i) =>
      KnownKeyIsLowerWord(i);
      if Title(KnownApps[i].key) == "Nvim" {
        NvimTitleKey(KnownApps[i].key);
        NvimMentionsVim(n);
        assert KnownApps[24].key == "vim";
        if i <= 24 {
          NvimKeyPosition(i);
        }
      }
    case None =>
  }

  /** The only lower-case word whose title is "Nvim" is "nvim". */
  lemma NvimTitleKey(k: string)
    requires |k| > 0 && IsLowerWord(k) && Title(k) == "Nvim"
    ensures k == "nvim"
  {
    TitleOfLowerWord(k);
    assert Lower("Nvim") == "nvim";
  }

  /** "nvim" is the key of entry 25 only. */
  lemma NvimKeyPosition(i: nat)
    requires i < |KnownApps| && i <= 24
    ensures KnownApps[i].key != "nvim"
  {
  }

  // --- The Docker image scan

  /** Position `i` holds a "run" word followed, somewhere later, by a word
      that is not a flag. */
  predicate RunWithImage(tokens: seq<string>, i: nat) {
    i < |tokens| && tokens[i] == "run" && exists j :: i < j < |tokens| && IsNotFlag(tokens[j])
  }

  /** Position `k` holds the last "run" word that has a non-flag successor. */
  predicate IsLastRun(tokens: seq<string>, k: nat) {
    RunWithImage(tokens, k) && forall m :: k < m < |tokens| ==> !RunWithImage(tokens, m)
  }

  /** The last such position in [lo, hi). */
  function LastRunBetween(tokens: seq<string>, lo: nat, hi: nat): (r: Option<nat>)
    requires lo <= hi <= |tokens|
    ensures r.Some? ==> lo <= r.value < hi && RunWithImage(tokens, r.value)
    ensures r.Some? ==> forall k :: r.value < k < hi ==> !RunWithImage(tokens, k)
    ensures r.None? ==> forall k :: lo <= k < hi ==> !RunWithImage(tokens, k)
    decreases hi - lo
  {
    if hi == lo then None
    else if RunWithImage(tokens, hi - 1) then Some(hi - 1)
    else LastRunBetween(tokens, lo, hi - 1)
  }

  /** The image named after the "run" at position `i`: the first non-flag
      word after it. */
  function ImageAfter(tokens: seq<string>, i: nat): (r: string)
    requires RunWithImage(tokens, i)
  {
    var j :| i < j < |tokens| && IsNotFlag(tokens[j]);
    var k := FirstWhere(tokens[i + 1..], IsNotFlag);
    assert IsNotFlag(tokens[i + 1..][j - i - 1]);
    ImageName(tokens[i + 1 + k.value])
  }

  /** The scan's result is the image after the LAST "run" that has a
      non-flag successor, or what was found before when there is none. */
  lemma {:induction false} ScanRunFindsLastRun(tokens: seq<string>, i: nat, found: Option<string>)
    requires i <= |tokens|
    ensures ScanRun(tokens, i, found) ==
      match LastRunBetween(tokens, i, |tokens|)
      case Some(k) => Some(ImageAfter(tokens, k))
      case None => found
    decreases |tokens| - i
  {
    if i < |tokens| {
      var next := ScanStep(tokens, i, found);
      ScanStepMeaning(tokens, i, found);
      assert ScanRun(tokens, i, found) == ScanRun(tokens, i + 1, next);
      ScanRunFindsLastRun(tokens, i + 1, next);
      LastRunSplitsLow(tokens, i, |tokens|);
      var later := LastRunBetween(tokens, i + 1, |tokens|);
      if later.Some? {
        assert LastRunBetween(tokens, i, |tokens|) == later;
      } else if RunWithImage(tokens, i) {
        assert LastRunBetween(tokens, i, |tokens|) == Some(i);
        assert ScanRun(tokens, i + 1, next) == next;
      } else {
        assert LastRunBetween(tokens, i, |tokens|) == None;
        assert next == found;
      }
    }
  }

  /** A step replaces what was found exactly at a "run" with an image. */
  lemma ScanStepMeaning(tokens: seq<string>, i: nat, found: Option<string>)
    requires i < |tokens|
    ensures ScanStep(tokens, i, found) == if RunWithImage(tokens, i) then Some(ImageAfter(tokens, i)) else found
  {
    if RunWithImage(tokens, i) {
      var j :| i < j < |tokens| && IsNotFlag(tokens[j]);
      assert IsNotFlag(tokens[i + 1..][j - i - 1]);
    }
  }

  /** Peeling the lowest position off [lo, hi). */
  lemma {:induction false} LastRunSplitsLow(tokens: seq<string>, lo: nat, hi: nat)
    requires lo < hi <= |tokens|
    ensures LastRunBetween(tokens, lo, hi) ==
      if LastRunBetween(tokens, lo + 1, hi).Some? then LastRunBetween(tokens, lo + 1, hi)
      else if RunWithImage(tokens, lo) then Some(lo)
      else None
    decreases hi - lo
  {
    if hi - 1 > lo {
      LastRunSplitsLow(tokens, lo, hi - 1);
    }
  }

  /** The Docker image, when one is named, comes from the last "run" of the
      command that has a non-flag successor: an earlier `run` is
      overridden. */
  lemma DockerImageFromLastRun(tokens: seq<string>)
    ensures ScanRun(tokens, 0, None).None? <==> forall k :: 0 <= k < |tokens| ==> !RunWithImage(tokens, k)
    ensures ScanRun(tokens, 0, None).Some? ==>
      exists k :: 0 <= k < |tokens| && RunWithImage(tokens, k)
        && (forall m :: k < m < |tokens| ==> !RunWithImage(tokens, m))
        && ScanRun(tokens, 0, None).value == ImageAfter(tokens, k)
    ensures forall k :: IsLastRun(tokens, k) ==> ScanRun(tokens, 0, None) == Some(ImageAfter(tokens, k))
  {
    ScanRunFindsLastRun(tokens, 0, None);
  }
}

=== FILE: identifier.dfy ===
/** `identify_process`, `_is_from_terminal` and `get_user_processes`: the
    record the program builds for one process, and the two-pass selection
    of the processes it shows (a cheap name and executable filter, then the
    full description and a filter on its category, name and text). */
module Identifier {
  import opened Options
  import opened Strings
  import opened Procs
  import opened Ports
  import opened Classifier
  import opened Related

  // ---------------------------------------------------------------------
  // Launched from a terminal

  /** Terminal emulators and shells, by lower-cased process name. */
  const Terminals: set<string> := {
    "terminal", "iterm2", "iterm", "alacritty", "kitty", "wezterm",
    "gnome-terminal", "konsole", "xterm", "tmux", "screen",
    "bash", "zsh", "fish", "sh", "tcsh", "ksh", "powershell", "cmd"
  }

  const ShellMarkers: seq<string> := ["bash", "zsh", "sh", "python", "node", "ruby"]

  /** The parent or grandparent is a terminal, or the first argument names
      a shell or an interpreter. */
  predicate IsFromTerminal(parent: Parent, argv: seq<string>): (b: bool)
    ensures b <==>
      || Lower(parent.name) in Terminals
      || (parent.grandparentName.Some? && Lower(parent.grandparentName.value) in Terminals)
      || (|argv| > 0 && (Contains(Lower(argv[0]), "sh") || Contains(Lower(argv[0]), "python")
                         || Contains(Lower(argv[0]), "node") || Contains(Lower(argv[0]), "ruby")))
  {
    assert |argv| > 0 ==> (AnyContains(Lower(argv[0]), ShellMarkers) <==>
      Contains(Lower(argv[0]), "sh") || Contains(Lower(argv[0]), "python")
      || Contains(Lower(argv[0]), "node") || Contains(Lower(argv[0]), "ruby")) by {
      if |argv| > 0 {
        ShellMarkersReduce(Lower(argv[0]));
      }
    }
    || Lower(parent.name) in Terminals
    || (parent.grandparentName.Some? && Lower(parent.grandparentName.value) in Terminals)
    || (|argv| > 0 && AnyContains(Lower(argv[0]), ShellMarkers))
  }

  /** "bash" and "zsh" add nothing to the marker list: both contain "sh",
      so the first-argument test is the same as looking for "sh", "python",
      "node" or "ruby". */
  lemma ShellMarkersReduce(s: string)
    ensures AnyContains(s, ShellMarkers) <==>
      Contains(s, "sh") || Contains(s, "python") || Contains(s, "node") || Contains(s, "ruby")
  {
    assert ShellMarkers[2] == "sh" && ShellMarkers[3] == "python";
    assert ShellMarkers[4] == "node" && ShellMarkers[5] == "ruby";
    if Contains(s, "bash") {
      assert OccursAt("bash", "sh", 2);
      ContainsFromOccurrence("bash", "sh", 2);
      ContainsTransitive(s, "bash", "sh");
    }
    if Contains(s, "zsh") {
      assert OccursAt("zsh", "sh", 1);
      ContainsFromOccurrence("zsh", "sh", 1);
      ContainsTransitive(s, "zsh", "sh");
    }
  }

  // ---------------------------------------------------------------------
  // identify_process

  /** The dictionary `identify_process` returns (CPU, memory, status, user
      name, thread count and start time left out). */
  datatype ProcessInfo = ProcessInfo(
    pid: int,
    name: string,
    listeningPorts: seq<int>,
    cmdline: seq<string>,
    parentPid: Option<int>,
    parentName: Option<string>,
    fromTerminal: bool,
    description: string,
    appName: string,
    category: Category,
    isUserProcess: bool,
    cwd: Option<string>,
    inUserDirectory: bool)

  function Identify(p: RawProcess, checkPorts: bool): (r: ProcessInfo)
    ensures r.pid == p.pid && r.name == p.name && r.cwd == p.cwd && r.cmdline == p.argv
    ensures r.parentPid == (if p.parent.Some? then Some(p.parent.value.pid) else None)
    ensures r.parentName == (if p.parent.Some? then Some(p.parent.value.name) else None)
    ensures r.description == Describe(p.name, p.argv, p.cwd).description
    ensures r.appName == Describe(p.name, p.argv, p.cwd).appName
    ensures r.category == Describe(p.name, p.argv, p.cwd).category
    ensures StrictlyIncreasing(r.listeningPorts)
    ensures forall q :: q in r.listeningPorts <==> checkPorts && q in p.listenPorts && IsWebPort(q)
    ensures r.fromTerminal <==> p.parent.Some? && IsFromTerminal(p.parent.value, p.argv)
    ensures r.inUserDirectory <==> InHomeTree(p.cwd)
    ensures r.inUserDirectory ==> r.isUserProcess && r.category != System
    ensures r.isUserProcess <==> r.category != System
  {
    var d := Describe(p.name, p.argv, p.cwd);
    ProcessInfo(
      p.pid,
      p.name,
      if checkPorts then FilterWebPorts(p.listenPorts) else [],
      p.argv,
      match p.parent case Some(q) => Some(q.pid) case None => None,
      match p.parent case Some(q) => Some(q.name) case None => None,
      p.parent.Some? && IsFromTerminal(p.parent.value, p.argv),
      d.description,
      d.appName,
      d.category,
      d.isUserProcess,
      p.cwd,
      InHomeTree(p.cwd))
  }

  // ---------------------------------------------------------------------
  // get_user_processes, first pass

  /** Names skipped before anything else is looked at. */
  const ExcludedNames: seq<string> := [
    "code", "git", "vim", "nvim", "emacs", "sublime", "atom",
    "code-helper", "chrome", "firefox", "safari", "slack", "spotify",
    "finder", "dock", "systemuiserver", "windowserver"
  ]

  predicate SystemExe(exe: string) {
    Contains(exe, "/System/") || Contains(exe, "/usr/libexec/") || Contains(exe, "/usr/sbin/")
  }

  /** A process survives the cheap first pass. */
  predicate IsCandidate(p: RawProcess) {
    !AnyContains(Lower(p.name), ExcludedNames) && !(p.exe.Some? && SystemExe(p.exe.value))
  }

  function Candidates(procs: seq<RawProcess>): (r: seq<RawProcess>)
    ensures |r| <= |procs|
    ensures forall p :: p in r <==> p in procs && IsCandidate(p)
  {
    if |procs| == 0 then []
    else
      assert forall q :: q in procs <==> q == procs[0] || q in procs[1..];
      (if IsCandidate(procs[0]) then [procs[0]] else []) + Candidates(procs[1..])
  }

  // ---------------------------------------------------------------------
  // get_user_processes, second pass

  /** Ports are only looked up for names that suggest a server. */
  const PortKeywords: seq<string> := [
    "python", "node", "npm", "flask", "django", "uvicorn",
    "gunicorn", "streamlit", "gradio", "vite", "webpack"
  ]

  predicate MightHavePorts(name: string) {
    AnyContains(Lower(name), PortKeywords)
  }

  const HiddenApps: seq<string> := ["code", "git", "vim", "nvim", "emacs", "sublime", "atom"]

  /** The filters applied to an identified process: not System, User
      Process or Development IDE; not one of the hidden editors or Git by
      display name; not VS Code or Git by description. */
  predicate Displayable(info: ProcessInfo): (b: bool)
    ensures b <==>
      && info.category !in {System, UserProcess, DevelopmentIde}
      && Lower(info.appName) !in HiddenApps
      && !Contains(Lower(info.description), "visual studio code")
      && !Contains(Lower(info.description), "git version control")
  {
    assert HiddenApps[1] == "git";
    && info.category !in {System, UserProcess, DevelopmentIde}
    && Lower(info.appName) !in HiddenApps
    && !Contains(Lower(info.description), "visual studio code")
    && !(Lower(info.appName) == "git" || Contains(Lower(info.description), "git version control"))
  }

  /** One element of the returned list: the record and its related
      processes. */
  datatype Listed = Listed(info: ProcessInfo, related: seq<RelatedRef>)

  /** What the second pass makes of candidate `c`; related processes are
      looked for among all candidates. */
  function Entry(c: RawProcess, pool: seq<RawProcess>): Listed {
    var info := Identify(c, MightHavePorts(c.name));
    Listed(info, FindRelated(info.pid, info.cwd, pool))
  }

  /** The first pass treats processes one at a time and keeps their
      order. */
  lemma {:induction false} CandidatesAppend(a: seq<RawProcess>, b: seq<RawProcess>)
    ensures Candidates(a + b) == Candidates(a) + Candidates(b)
  {
    if |a| > 0 {
      assert (a + b)[0] == a[0];
      assert (a + b)[1..] == a[1..] + b;
      CandidatesAppend(a[1..], b);
    } else {
      assert a + b == b;
    }
  }

  /** The record of every candidate, in order. */
  function Entries(cands: seq<RawProcess>, pool: seq<RawProcess>): (r: seq<Listed>)
    ensures |r| == |cands|
    ensures forall k :: 0 <= k < |r| ==> r[k] == Entry(cands[k], pool)
  {
    if |cands| == 0 then [] else [Entry(cands[0], pool)] + Entries(cands[1..], pool)
  }

  /** The displayable records, in order. */
  function Displayed(xs: seq<Listed>): (r: seq<Listed>)
    ensures |r| <= |xs|
    ensures forall x :: x in r <==> x in xs && Displayable(x.info)
  {
    if |xs| == 0 then []
    else
      assert forall q :: q in xs <==> q == xs[0] || q in xs[1..];
      (if Displayable(xs[0].info) then [xs[0]] else []) + Displayed(xs[1..])
  }

  /** The second pass: the displayable records of the candidates, in
      order. */
  function ShowAll(cands: seq<RawProcess>, pool: seq<RawProcess>): (r: seq<Listed>)
    ensures |r| <= |cands|
    ensures forall x :: x in r <==> exists c :: c in cands && Displayable(Entry(c, pool).info) && x == Entry(c, pool)
  {
    var es := Entries(cands, pool);
    assert forall x :: x in es <==> exists c :: c in cands && x == Entry(c, pool) by {
      forall x | x in es
        ensures exists c :: c in cands && x == Entry(c, pool)
      {
        var k :| 0 <= k < |es| && es[k] == x;
        assert cands[k] in cands;
      }
      forall c | c in cands
        ensures Entry(c, pool) in es
      {
        var k :| 0 <= k < |cands| && cands[k] == c;
        assert es[k] == Entry(c, pool);
      }
    }
    Displayed(es)
  }

  lemma {:induction false} EntriesAppend(a: seq<RawProcess>, b: seq<RawProcess>, pool: seq<RawProcess>)
    ensures Entries(a + b, pool) == Entries(a, pool) + Entries(b, pool)
  {
    var l := Entries(a + b, pool);
    var r := Entries(a, pool) + Entries(b, pool);
    assert |l| == |r|;
    forall k | 0 <= k < |l|
      ensures l[k] == r[k]
    {
      if k < |a| {
        assert (a + b)[k] == a[k];
      } else {
        assert (a + b)[k] == b[k - |a|];
      }
    }
  }

  lemma {:induction false} DisplayedAppend(xs: seq<Listed>, ys: seq<Listed>)
    ensures Displayed(xs + ys) == Displayed(xs) + Displayed(ys)
  {
    if |xs| > 0 {
      assert (xs + ys)[0] == xs[0];
      assert (xs + ys)[1..] == xs[1..] + ys;
      DisplayedAppend(xs[1..], ys);
    } else {
      assert xs + ys == ys;
    }
  }

  /** The second pass treats candidates one at a time and keeps their
      order; the pool searched for related processes stays the same. */
  lemma ShowAllAppend(a: seq<RawProcess>, b: seq<RawProcess>, pool: seq<RawProcess>)
    ensures ShowAll(a + b, pool) == ShowAll(a, pool) + ShowAll(b, pool)
  {
    EntriesAppend(a, b, pool);
    DisplayedAppend(Entries(a, pool), Entries(b, pool));
  }

  /** `get_user_processes` on one snapshot of the process table (the
      five-second cache left out). */
  function GetUserProcesses(procs: seq<RawProcess>): (r: seq<Listed>)
    ensures forall x :: x in r <==>
      exists c :: c in procs && IsCandidate(c) && Displayable(Entry(c, Candidates(procs)).info) && x == Entry(c, Candidates(procs))
  {
    ShowAll(Candidates(procs), Candidates(procs))
  }

  // ---------------------------------------------------------------------
  // Properties

  /** Git never reaches the list: a Version Control description is always
      named "Git", which the display-name filter removes. */
  lemma VersionControlNeverShown(p: RawProcess, checkPorts: bool)
    ensures Displayable(Identify(p, checkPorts)) ==> Identify(p, checkPorts).category != VersionControl
  {
    VersionControlIsGit(p.name, p.argv, p.cwd);
    assert Lower("Git") == "git";
  }

  /** Every listed process is a candidate with a displayable, user-process
      record, not Version Control, whose related processes exclude itself. */
  lemma ListedShape(procs: seq<RawProcess>)
    ensures forall x :: x in GetUserProcesses(procs) ==>
      && x.info.isUserProcess
      && x.info.category !in {System, UserProcess, DevelopmentIde, VersionControl}
      && (forall y :: y in x.related ==> y.pid != x.info.pid)
  {
    forall x | x in GetUserProcesses(procs)
      ensures x.info.isUserProcess
      ensures x.info.category !in {System, UserProcess, DevelopmentIde, VersionControl}
      ensures forall y :: y in x.related ==> y.pid != x.info.pid
    {
      var c :| c in procs && IsCandidate(c) && Displayable(Entry(c, Candidates(procs)).info) && x == Entry(c, Candidates(procs));
      VersionControlNeverShown(c, MightHavePorts(c.name));
    }
  }

  /** A process whose lower-cased name contains an excluded word (an
      editor, a browser, Git, a desktop service) is never listed, whatever
      its command line. */
  lemma ExcludedNameNeverListed(procs: seq<RawProcess>, c: RawProcess, k: nat)
    requires k < |ExcludedNames| && Contains(Lower(c.name), ExcludedNames[k])
    ensures forall x :: x in GetUserProcesses(procs) ==> x != Entry(c, Candidates(procs))
  {
    assert !IsCandidate(c);
    forall x | x in GetUserProcesses(procs)
      ensures x != Entry(c, Candidates(procs))
    {
      var c' :| c' in procs && IsCandidate(c') && Displayable(Entry(c', Candidates(procs)).info) && x == Entry(c', Candidates(procs));
      assert x.info.name == c'.name;
    }
  }

  /** Without a port-suggesting name no ports are recorded. */
  lemma NoPortsWithoutKeyword(c: RawProcess, pool: seq<RawProcess>)
    requires !MightHavePorts(c.name)
    ensures Entry(c, pool).info.listeningPorts == []
  {
  }
}

=== FILE: monitor.dfy ===
/** The process monitor: `get_listening_ports`, `get_process_info` (its
    script-name rule and its "Unknown" defaults), and `get_dev_processes`
    (target names, skipped command lines, the keep rule and the sort by
    memory, largest first). */
module Monitor {
  import opened Options
  import opened Strings
  import opened Procs
  import opened Ports
  import opened Uptime

  /** `get_listening_ports`: the listening ports, each once, ascending. */
  function ListeningPorts(raw: seq<int>): (r: seq<int>)
    ensures StrictlyIncreasing(r)
    ensures forall p :: p in r <==> p in raw
    ensures |r| == 0 <==> |raw| == 0
  {
    var r := SortedDistinct(raw);
    assert |raw| > 0 ==> raw[0] in raw;
    r
  }

  // ---------------------------------------------------------------------
  // The script name

  /** Position `i` ends the Python loop: a `.py` argument, or the argument
      right after a "-m". */
  predicate PyHit(argv: seq<string>, i: nat)
    requires i < |argv|
  {
    EndsWith(argv[i], ".py") || (i > 0 && argv[i - 1] == "-m")
  }

  /** The first position from `i` on where the Python loop stops. */
  function FirstPyHit(argv: seq<string>, i: nat): (r: Option<nat>)
    requires i <= |argv|
    ensures r.Some? ==> i <= r.value < |argv| && PyHit(argv, r.value)
    ensures r.Some? ==> forall j :: i <= j < r.value ==> !PyHit(argv, j)
    ensures r.None? ==> forall j :: i <= j < |argv| ==> !PyHit(argv, j)
    decreases |argv| - i
  {
    if i == |argv| then None
    else if PyHit(argv, i) then Some(i)
    else FirstPyHit(argv, i + 1)
  }

  /** The `script_name` entry, when one is set: for a Python process the
      base name of the first `.py` argument or the module after "-m",
      whichever comes first; for a Node.js or npm process the base name of
      the first argument after the program that is not a flag. */
  function ScriptName(name: string, argv: seq<string>): (r: Option<string>)
    ensures |argv| == 0 ==> r.None?
    ensures r.Some? && !Contains(Lower(name), "python") ==> '/' !in r.value
  {
    var n := Lower(name);
    if |argv| == 0 then None
    else if Contains(n, "python") then
      match FirstPyHit(argv, 0)
      case Some(k) => Some(if EndsWith(argv[k], ".py") then Basename(argv[k]) else argv[k])
      case None => None
    else if Contains(n, "node") || Contains(n, "npm") then
      match FirstWhere(argv[1..], (a: string) => !IsFlag(a))
      case Some(j) => Some(Basename(argv[1 + j]))
      case None => None
    else None
  }

  // ---------------------------------------------------------------------
  // get_process_info

  /** The dictionary `get_process_info` returns (CPU, memory percentage,
      status and user name left out; memory kept as the sort key). */
  datatype DevProcess = DevProcess(
    pid: int,
    name: string,
    exe: string,
    cmdline: string,
    memory: int,
    ports: seq<int>,
    cwd: string,
    scriptName: Option<string>,
    uptime: string)

  /** `x if x else 'Unknown'`. */
  function OrUnknown(v: Option<string>): (r: string)
    ensures r != ""
    ensures v.Some? && v.value != "" ==> r == v.value
    ensures !(v.Some? && v.value != "") ==> r == "Unknown"
  {
    if v.Some? && v.value != "" then v.value else "Unknown"
  }

  function GetProcessInfo(p: RawProcess): (r: DevProcess)
    ensures r.pid == p.pid && r.name == p.name && r.memory == p.memory
    ensures r.cmdline == Join(p.argv, " ")
    ensures r.exe == OrUnknown(p.exe) && r.cwd == OrUnknown(p.cwd)
    ensures r.exe != "" && r.cwd != ""
    ensures StrictlyIncreasing(r.ports) && forall q :: q in r.ports <==> q in p.listenPorts
    ensures r.scriptName == ScriptName(p.name, p.argv)
    ensures ParseUptime(r.uptime) == Some(Measure(p.ageSeconds))
  {
    DevProcess(
      p.pid,
      p.name,
      OrUnknown(p.exe),
      Join(p.argv, " "),
      p.memory,
      ListeningPorts(p.listenPorts),
      OrUnknown(p.cwd),
      ScriptName(p.name, p.argv),
      FormatUptime(p.ageSeconds))
  }

  // ---------------------------------------------------------------------
  // get_dev_processes

  const TargetProcesses: seq<string> := ["python", "python3", "node", "npm", "yarn", "pnpm", "deno", "bun"]

  const SkipPatterns: seq<string> := [
    "/usr/libexec/", "chrome", "electron", "vscode", "code-helper",
    "microsoft", "dropbox", "slack", "spotify"
  ]

  predicate IsTarget(nameLower: string) {
    AnyContains(nameLower, TargetProcesses)
  }

  /** A non-empty command line that mentions a skipped pattern. */
  predicate IsSkipped(argv: seq<string>) {
    |argv| > 0 && AnyContains(Lower(Join(argv, " ")), SkipPatterns)
  }

  /** The process is listed: a target name, no skipped pattern, an
      executable path and a working directory that could be read (an access
      error in either makes `get_process_info` return None, which drops the
      process), and either listening ports or "python" or "node" in its
      name. */
  predicate Keep(p: RawProcess): (b: bool)
    ensures b ==> p.exe.Some? && p.cwd.Some?
    ensures b ==> |p.listenPorts| > 0 || Contains(Lower(p.name), "python") || Contains(Lower(p.name), "node")
    ensures b ==> (Contains(Lower(p.name), "python") || Contains(Lower(p.name), "node") || Contains(Lower(p.name), "npm")
      || Contains(Lower(p.name), "yarn") || Contains(Lower(p.name), "pnpm") || Contains(Lower(p.name), "deno")
      || Contains(Lower(p.name), "bun"))
  {
    var n := Lower(p.name);
    TargetsReduce(n);
    IsTarget(n) && !IsSkipped(p.argv) && p.exe.Some? && p.cwd.Some?
    && (|ListeningPorts(p.listenPorts)| > 0 || Contains(n, "python") || Contains(n, "node"))
  }

  /** The kept processes, in table order. */
  function DevCandidates(procs: seq<RawProcess>): (r: seq<DevProcess>)
    ensures |r| <= |procs|
    ensures forall x :: x in r <==> exists p :: p in procs && Keep(p) && x == GetProcessInfo(p)
  {
    if |procs| == 0 then []
    else
      assert forall q :: q in procs <==> q == procs[0] || q in procs[1..];
      (if Keep(procs[0]) then [GetProcessInfo(procs[0])] else []) + DevCandidates(procs[1..])
  }

  /** The selection treats processes one at a time: selecting from two
      lists in turn gives the first list's records before the second's. */
  lemma {:induction false} DevCandidatesAppend(a: seq<RawProcess>, b: seq<RawProcess>)
    ensures DevCandidates(a + b) == DevCandidates(a) + DevCandidates(b)
  {
    if |a| > 0 {
      assert (a + b)[0] == a[0];
      assert (a + b)[1..] == a[1..] + b;
      DevCandidatesAppend(a[1..], b);
    } else {
      assert a + b == b;
    }
  }

  /** A process whose executable path or working directory could not be
      read is never listed, whatever its name and ports: removing it from
      the table changes nothing. */
  lemma {:induction false} UnreadableNeverKept(a: seq<RawProcess>, p: RawProcess, b: seq<RawProcess>)
    requires p.exe.None? || p.cwd.None?
    ensures !Keep(p)
    ensures DevCandidates(a + [p] + b) == DevCandidates(a + b)
  {
    DevCandidatesAppend(a + [p], b);
    DevCandidatesAppend(a, [p]);
    DevCandidatesAppend(a, b);
    assert [p][1..] == [];
  }

  // --- The sort by memory, largest first

  predicate NonIncreasing(xs: seq<DevProcess>) {
    forall i, j :: 0 <= i < j < |xs| ==> xs[i].memory >= xs[j].memory
  }

  /** No element uses more than `b`. */
  predicate AtMost(xs: seq<DevProcess>, b: int) {
    forall i :: 0 <= i < |xs| ==> xs[i].memory <= b
  }

  /** The elements with memory `m`, in order. */
  function WithMemory(xs: seq<DevProcess>, m: int): (r: seq<DevProcess>)
    ensures forall x :: x in r ==> x in xs && x.memory == m
  {
    if |xs| == 0 then []
    else
      assert forall q :: q in xs[1..] ==> q in xs;
      (if xs[0].memory == m then [xs[0]] else []) + WithMemory(xs[1..], m)
  }

  /** Inserts `x` in front of the first element whose memory is not larger,
      so that it stays ahead of the elements with equal memory it preceded
      in the input. */
  function InsertByMemory(x: DevProcess, xs: seq<DevProcess>): (r: seq<DevProcess>)
    ensures multiset(r) == multiset(xs) + multiset{x}
  {
    if |xs| == 0 then [x]
    else if xs[0].memory <= x.memory then [x] + xs
    else
      assert xs == [xs[0]] + xs[1..];
      [xs[0]] + InsertByMemory(x, xs[1..])
  }

  /** `sort(key=memory, reverse=True)`: largest first, a permutation of the
      input. */
  function SortByMemory(xs: seq<DevProcess>): (r: seq<DevProcess>)
    ensures NonIncreasing(r)
    ensures multiset(r) == multiset(xs)
    ensures forall x :: x in r <==> x in xs
  {
    if |xs| == 0 then []
    else
      var rest := SortByMemory(xs[1..]);
      assert xs == [xs[0]] + xs[1..];
      InsertNonIncreasing(xs[0], rest);
      SameMembers(InsertByMemory(xs[0], rest), xs);
      InsertByMemory(xs[0], rest)
  }

  lemma SameMembers(a: seq<DevProcess>, b: seq<DevProcess>)
    requires multiset(a) == multiset(b)
    ensures forall x :: x in a <==> x in b
  {
    forall x
      ensures x in a <==> x in b
    {
      assert x in a <==> x in multiset(a);
      assert x in b <==> x in multiset(b);
    }
  }

  lemma ConsNonIncreasing(h: DevProcess, t: seq<DevProcess>)
    requires NonIncreasing(t) && AtMost(t, h.memory)
    ensures NonIncreasing([h] + t)
  {
    var r := [h] + t;
    forall i, j | 0 <= i < j < |r|
      ensures r[i].memory >= r[j].memory
    {
      assert r[j] == t[j - 1];
      if i > 0 {
        assert r[i] == t[i - 1];
      }
    }
  }

  lemma {:induction false} InsertAtMost(x: DevProcess, xs: seq<DevProcess>, b: int)
    requires AtMost(xs, b) && x.memory <= b
    ensures AtMost(InsertByMemory(x, xs), b)
  {
    if |xs| > 0 && xs[0].memory > x.memory {
      InsertAtMost(x, xs[1..], b);
      var r := InsertByMemory(x, xs);
      forall i | 0 <= i < |r|
        ensures r[i].memory <= b
      {
        if i > 0 {
          assert r[i] == InsertByMemory(x, xs[1..])[i - 1];
        }
      }
    } else if |xs| > 0 {
      var r := InsertByMemory(x, xs);
      forall i | 0 < i < |r|
        ensures r[i].memory <= b
      {
        assert r[i] == xs[i - 1];
      }
    }
  }

  /** Inserting into a list sorted largest first keeps it sorted. */
  lemma {:induction false} InsertNonIncreasing(x: DevProcess, xs: seq<DevProcess>)
    requires NonIncreasing(xs)
    ensures NonIncreasing(InsertByMemory(x, xs))
  {
    if |xs| == 0 {
    } else if xs[0].memory <= x.memory {
      ConsNonIncreasing(x, xs);
    } else {
      var rest := InsertByMemory(x, xs[1..]);
      assert NonIncreasing(xs[1..]) && AtMost(xs[1..], xs[0].memory) by {
        forall i | 0 <= i < |xs[1..]|
          ensures xs[1..][i].memory <= xs[0].memory
        {
          assert xs[1..][i] == xs[i + 1];
        }
      }
      InsertNonIncreasing(x, xs[1..]);
      InsertAtMost(x, xs[1..], xs[0].memory);
      ConsNonIncreasing(xs[0], rest);
    }
  }

  /** Inserting `x` puts it ahead of every element with its memory: the
      elements it passes all use more. */
  lemma {:induction false} InsertWithMemory(x: DevProcess, xs: seq<DevProcess>, m: int)
    ensures WithMemory(InsertByMemory(x, xs), m) == (if x.memory == m then [x] else []) + WithMemory(xs, m)
  {
    var r := InsertByMemory(x, xs);
    var own: seq<DevProcess> := if x.memory == m then [x] else [];
    if |xs| == 0 {
      assert r == [x] && r[1..] == [];
    } else if xs[0].memory <= x.memory {
      assert r[0] == x && r[1..] == xs;
    } else {
      var rest := InsertByMemory(x, xs[1..]);
      var head: seq<DevProcess> := if xs[0].memory == m then [xs[0]] else [];
      assert r[0] == xs[0] && r[1..] == rest;
      assert WithMemory(r, m) == head + WithMemory(rest, m);
      InsertWithMemory(x, xs[1..], m);
      assert WithMemory(rest, m) == own + WithMemory(xs[1..], m);
      assert WithMemory(xs, m) == head + WithMemory(xs[1..], m);
      assert own == [] || head == [];
    }
  }

  /** The sort is stable: the processes with any one memory figure come out
      in the order they went in. */
  lemma {:induction false} SortStable(xs: seq<DevProcess>, m: int)
    ensures WithMemory(SortByMemory(xs), m) == WithMemory(xs, m)
  {
    if |xs| > 0 {
      SortStable(xs[1..], m);
      InsertWithMemory(xs[0], SortByMemory(xs[1..]), m);
    }
  }

  /** `get_dev_processes` on one snapshot of the process table. */
  function GetDevProcesses(procs: seq<RawProcess>): (r: seq<DevProcess>)
    ensures NonIncreasing(r)
    ensures multiset(r) == multiset(DevCandidates(procs))
    ensures forall m :: WithMemory(r, m) == WithMemory(DevCandidates(procs), m)
    ensures forall x :: x in r <==> exists p :: p in procs && Keep(p) && x == GetProcessInfo(p)
  {
    var r := SortByMemory(DevCandidates(procs));
    assert forall m :: WithMemory(r, m) == WithMemory(DevCandidates(procs), m) by {
      forall m
        ensures WithMemory(r, m) == WithMemory(DevCandidates(procs), m)
      {
        SortStable(DevCandidates(procs), m);
      }
    }
    r
  }

  // ---------------------------------------------------------------------
  // Properties

  /** "python3" adds nothing to the target list, since it contains
      "python". */
  lemma TargetsReduce(n: string)
    ensures IsTarget(n) <==>
      Contains(n, "python") || Contains(n, "node") || Contains(n, "npm") || Contains(n, "yarn")
      || Contains(n, "pnpm") || Contains(n, "deno") || Contains(n, "bun")
  {
    assert TargetProcesses[0] == "python" && TargetProcesses[2] == "node" && TargetProcesses[3] == "npm";
    assert TargetProcesses[4] == "yarn" && TargetProcesses[5] == "pnpm";
    assert TargetProcesses[6] == "deno" && TargetProcesses[7] == "bun";
    if Contains(n, "python3") {
      assert OccursAt("python3", "python", 0);
      ContainsFromOccurrence("python3", "python", 0);
      ContainsTransitive(n, "python3", "python");
    }
  }

  /** A package-manager process (yarn, pnpm, deno, bun) that is neither
      Python nor Node.js by name is only listed while it listens on a
      port. */
  lemma ManagerNeedsPorts(p: RawProcess)
    requires !Contains(Lower(p.name), "python") && !Contains(Lower(p.name), "node")
    ensures Keep(p) ==> |p.listenPorts| > 0
  {
  }

  /** A Python process run as `python -m <module>`, with no `.py` argument
      up to the module name and no earlier "-m", is named after the
      module. */
  lemma ModuleScriptName(name: string, argv: seq<string>, k: nat)
    requires Contains(Lower(name), "python")
    requires k + 1 < |argv| && argv[k] == "-m"
    requires forall j :: 0 <= j <= k + 1 ==> !EndsWith(argv[j], ".py")
    requires forall j :: 0 <= j < k ==> argv[j] != "-m"
    ensures ScriptName(name, argv) == Some(argv[k + 1])
  {
    var h := FirstPyHit(argv, 0);
    assert PyHit(argv, k + 1);
    assert h.Some? && h.value == k + 1;
  }

  /** The first `.py` argument names a Python process by its base name,
      unless an earlier "-m" claims the argument after it. */
  lemma PythonScriptName(name: string, argv: seq<string>, k: nat)
    requires Contains(Lower(name), "python")
    requires k < |argv| && EndsWith(argv[k], ".py")
    requires forall j :: 0 <= j < k ==> !PyHit(argv, j)
    ensures ScriptName(name, argv) == Some(Basename(argv[k]))
    ensures '/' !in ScriptName(name, argv).value
  {
    assert PyHit(argv, k);
    var h := FirstPyHit(argv, 0);
    assert h.Some? && h.value == k;
  }

  /** A Node.js or npm process (not Python by name) is named after the
      base name of its first non-flag argument after the program. */
  lemma NodeScriptName(name: string, argv: seq<string>, j: nat)
    requires !Contains(Lower(name), "python")
    requires Contains(Lower(name), "node") || Contains(Lower(name), "npm")
    requires 1 <= j < |argv| && !IsFlag(argv[j])
    requires forall i :: 1 <= i < j ==> IsFlag(argv[i])
    ensures ScriptName(name, argv) == Some(Basename(argv[j]))
  {
    var rest := argv[1..];
    assert rest[j - 1] == argv[j];
    forall i | 0 <= i < j - 1
      ensures IsFlag(rest[i])
    {
      assert rest[i] == argv[i + 1];
    }
    var h := FirstWhere(rest, (a: string) => !IsFlag(a));
    assert h.Some? && h.value == j - 1;
  }

  /** A Python process with no `.py` argument and no "-m" followed by an
      argument gets no script name. */
  lemma PythonNoScriptName(name: string, argv: seq<string>)
    requires Contains(Lower(name), "python")
    requires forall j :: 0 <= j < |argv| ==> !PyHit(argv, j)
    ensures ScriptName(name, argv).None?
  {
  }

  /** A process whose name mentions none of python, node and npm gets no
      script name. */
  lemma OtherNoScriptName(name: string, argv: seq<string>)
    requires !Contains(Lower(name), "python") && !Contains(Lower(name), "node") && !Contains(Lower(name), "npm")
    ensures ScriptName(name, argv).None?
  {
  }

  /** A kept process has no skipped pattern in its command line, the empty
      command line included. */
  lemma KeptNeverSkipped(p: RawProcess)
    requires Keep(p)
    ensures !AnyContains(Lower(Join(p.argv, " ")), SkipPatterns)
  {
    if |p.argv| == 0 {
      assert Lower(Join(p.argv, " ")) == "";
      forall k | 0 <= k < |SkipPatterns|
        ensures !Contains("", SkipPatterns[k])
      {
        assert |SkipPatterns[k]| > 0;
      }
    }
  }

  /** No listed process has a skipped pattern in its command line. */
  lemma ListedNeverSkipped(procs: seq<RawProcess>)
    ensures forall x :: x in GetDevProcesses(procs) ==> !AnyContains(Lower(x.cmdline), SkipPatterns)
  {
    forall x | x in GetDevProcesses(procs)
      ensures !AnyContains(Lower(x.cmdline), SkipPatterns)
    {
      var p :| p in procs && Keep(p) && x == GetProcessInfo(p);
      KeptNeverSkipped(p);
    }
  }

  /** A Node.js or npm process whose arguments after the program are all
      flags gets no script name. */
  lemma NodeNoScriptName(name: string, argv: seq<string>)
    requires !Contains(Lower(name), "python")
    requires Contains(Lower(name), "node") || Contains(Lower(name), "npm")
    requires forall i :: 1 <= i < |argv| ==> IsFlag(argv[i])
    ensures ScriptName(name, argv).None?
  {
    if |argv| > 0 {
      var rest := argv[1..];
      forall i | 0 <= i < |rest|
        ensures IsFlag(rest[i])
      {
        assert rest[i] == argv[i + 1];
      }
    }
  }

  /** Every listed process listens on a port or has "python" or "node" in
      its lower-cased name. */
  lemma ListedHasPortsOrName(procs: seq<RawProcess>)
    ensures forall x :: x in GetDevProcesses(procs) ==>
      |x.ports| > 0 || Contains(Lower(x.name), "python") || Contains(Lower(x.name), "node")
  {
    forall x | x in GetDevProcesses(procs)
      ensures |x.ports| > 0 || Contains(Lower(x.name), "python") || Contains(Lower(x.name), "node")
    {
      var p :| p in procs && Keep(p) && x == GetProcessInfo(p);
      assert x.ports == ListeningPorts(p.listenPorts);
    }
  }
}

=== FILE: options.dfy ===
/** The optional value used wherever the program reads something that may be
    missing (a working directory it may not read, a parent process, a match
    that may not exist). */
module Options {

  datatype Option<+T> = None | Some(value: T) {

    /** The wrapped value, or `default` when there is none. */
    function GetOr(default: T): T {
      match this
      case Some(v) => v
      case None => default
    }
  }
}

=== FILE: ports.dfy ===
/** The listening-port filter of `identify_process` and the
    "deduplicate, then sort" normalisation both source files apply to port
    lists. */
module Ports {

  /** Ports kept whatever else holds (standard HTTP, React/Node, Angular,
      Flask, Vite, Django, Streamlit, Gradio, ...). */
  const CommonWebPorts: seq<int> := [
    80, 443,
    3000, 3001, 3002, 3003, 3004, 3005,
    4000, 4001, 4200,
    5000, 5001, 5173, 5174, 5555, 5556,
    8000, 8001, 8080, 8081, 8888,
    8501, 8502, 8503,
    9000, 9001, 9090,
    7860, 7861
  ]

  /** The seven inclusive ranges of likely development web servers. */
  predicate InDevRange(p: int) {
    || 3000 <= p <= 3010
    || 4000 <= p <= 4010
    || 5000 <= p <= 5010
    || 7860 <= p <= 7870
    || 8000 <= p <= 8100
    || 8500 <= p <= 8510
    || 9000 <= p <= 9100
  }

  /** Internal ports of known tools that a range match must not admit. */
  const ExcludedPorts: set<int> := {
    49152, 49153, 49154, 49155, 49156, 49157, 49158, 49159,
    49546, 49547, 49548, 49549, 49550, 49551, 49552,
    49571, 49566, 49565, 49562
  }

  /** The ephemeral range, approximated as 49000-65535. */
  predicate InEphemeralRange(p: int) {
    49000 <= p <= 65535
  }

  /** Whether a listening port is worth showing: listed, or in a range and
      neither excluded nor ephemeral. */
  predicate IsWebPort(p: int): (b: bool)
    ensures b ==> 80 <= p <= 9100 && !InEphemeralRange(p)
  {
    p in CommonWebPorts || (InDevRange(p) && p !in ExcludedPorts && !InEphemeralRange(p))
  }

  /** Every kept port lies between 80 and 9100, hence outside the ephemeral
      range; and the exclusion list and the ephemeral guard never reject a
      port that a range admits, so they can be read as absent. */
  lemma WebPortShape(p: int)
    ensures IsWebPort(p) ==> 80 <= p <= 9100 && !InEphemeralRange(p)
    ensures IsWebPort(p) <==> p in CommonWebPorts || InDevRange(p)
  {
  }

  /** Boundary cases of the filter: the top of the 8000-8100 band is kept
      and the port just above it is not. */
  lemma WebPortBandEdge()
    ensures IsWebPort(8100) && !IsWebPort(8101)
  {
    assert 8100 !in ExcludedPorts;
  }

  /** Ephemeral and low system ports are dropped. */
  lemma WebPortDropsEphemeral()
    ensures !IsWebPort(50000) && !IsWebPort(54321) && !IsWebPort(22)
  {
    WebPortShape(50000);
    WebPortShape(54321);
    WebPortShape(22);
  }

  // ---------------------------------------------------------------------
  // sorted(set(xs))

  predicate StrictlyIncreasing(xs: seq<int>) {
    forall i, j :: 0 <= i < j < |xs| ==> xs[i] < xs[j]
  }

  /** The head of a strictly increasing list is its least element, and the
      tail holds exactly the other elements. */
  lemma HeadAndTail(a: seq<int>)
    requires StrictlyIncreasing(a) && |a| > 0
    ensures forall y :: y in a ==> a[0] <= y
    ensures forall y :: y in a[1..] <==> y in a && y != a[0]
  {
    forall y | y in a
      ensures a[0] <= y
      ensures y != a[0] ==> y in a[1..]
    {
      var k :| 0 <= k < |a| && a[k] == y;
      if k > 0 {
        assert a[1..][k - 1] == y;
      }
    }
    forall y | y in a[1..]
      ensures y in a && y != a[0]
    {
      var k :| 0 <= k < |a| - 1 && a[1..][k] == y;
      assert a[k + 1] == y;
    }
  }

  /** Putting a smaller element in front keeps a list strictly increasing. */
  lemma ConsIncreasing(h: int, t: seq<int>)
    requires StrictlyIncreasing(t)
    requires forall y :: y in t ==> h < y
    ensures StrictlyIncreasing([h] + t)
  {
    var r := [h] + t;
    forall i, j | 0 <= i < j < |r|
      ensures r[i] < r[j]
    {
      assert r[j] == t[j - 1];
      if i > 0 {
        assert r[i] == t[i - 1];
      } else {
        assert t[j - 1] in t;
      }
    }
  }

  /** Inserts `x` into a strictly increasing list unless it is already there. */
  function InsertSorted(x: int, xs: seq<int>): (r: seq<int>)
    requires StrictlyIncreasing(xs)
    ensures StrictlyIncreasing(r)
    ensures forall y :: y in r <==> y == x || y in xs
  {
    if |xs| == 0 then [x]
    else if x < xs[0] then
      HeadAndTail(xs);
      ConsIncreasing(x, xs);
      [x] + xs
    else if x == xs[0] then xs
    else
      var rest := InsertSorted(x, xs[1..]);
      HeadAndTail(xs);
      ConsIncreasing(xs[0], rest);
      assert forall y :: y in xs <==> y == xs[0] || y in xs[1..];
      [xs[0]] + rest
  }

  /** Python's `sorted(set(xs))`: the distinct elements of `xs` in
      increasing order. */
  function SortedDistinct(xs: seq<int>): (r: seq<int>)
    ensures StrictlyIncreasing(r)
    ensures forall y :: y in r <==> y in xs
  {
    if |xs| == 0 then []
    else
      assert forall y :: y in xs <==> y == xs[0] || y in xs[1..];
      InsertSorted(xs[0], SortedDistinct(xs[1..]))
  }

  /** A strictly increasing list is determined by its elements, so
      `SortedDistinct` is the only list with the two properties above. */
  lemma {:induction false} StrictlyIncreasingUnique(a: seq<int>, b: seq<int>)
    requires StrictlyIncreasing(a) && StrictlyIncreasing(b)
    requires forall y :: y in a <==> y in b
    ensures a == b
  {
    if |b| != 0 {
      assert b[0] in b;
    }
    if |a| != 0 {
      assert a[0] in a;
      HeadAndTail(a);
      HeadAndTail(b);
      assert b[0] in a;
      assert a[0] == b[0];
      StrictlyIncreasingUnique(a[1..], b[1..]);
      assert a == [a[0]] + a[1..];
      assert b == [b[0]] + b[1..];
    }
  }

  /** Normalising twice changes nothing. */
  lemma SortedDistinctIdempotent(xs: seq<int>)
    ensures SortedDistinct(SortedDistinct(xs)) == SortedDistinct(xs)
  {
    StrictlyIncreasingUnique(SortedDistinct(SortedDistinct(xs)), SortedDistinct(xs));
  }

  // ---------------------------------------------------------------------
  // The listening-port filter

  /** The ports of `raw` that pass `IsWebPort`, in their original order. */
  function WebPortsIn(raw: seq<int>): (r: seq<int>)
    ensures forall p :: p in r <==> p in raw && IsWebPort(p)
  {
    if |raw| == 0 then []
    else (if IsWebPort(raw[0]) then [raw[0]] else []) + WebPortsIn(raw[1..])
  }

  /** The `listening_ports` list `identify_process` records from the raw
      listening ports: the web ports only, each once, ascending. */
  function FilterWebPorts(raw: seq<int>): (r: seq<int>)
    ensures StrictlyIncreasing(r)
    ensures forall p :: p in r <==> p in raw && IsWebPort(p)
    ensures forall p :: p in r ==> 80 <= p <= 9100 && !InEphemeralRange(p)
  {
    var r := SortedDistinct(WebPortsIn(raw));
    forall p | p in r
      ensures 80 <= p <= 9100 && !InEphemeralRange(p)
    {
      WebPortShape(p);
    }
    r
  }

  /** Filtering an already filtered list changes nothing. */
  lemma FilterWebPortsIdempotent(raw: seq<int>)
    ensures FilterWebPorts(FilterWebPorts(raw)) == FilterWebPorts(raw)
  {
    StrictlyIncreasingUnique(FilterWebPorts(FilterWebPorts(raw)), FilterWebPorts(raw));
  }
}

=== FILE: procs.dfy ===
/** One captured row of the process table. Every operating-system query the
    program makes through psutil becomes a field here. The working
    directory and the executable path are `Option`s, with `None` standing
    for an access error on that query. The parent is an `Option` too, with
    `None` standing for a process that has no parent (access errors on the
    parent are not modelled). The argument vector and the listening ports
    are sequences, empty when there are none. */
module Procs {
  import opened Options

  /** The parent of a process as `proc.parent()` reports it, with the name of
      the parent's own parent when there is one (`None` when the parent has
      no parent). */
  datatype Parent = Parent(pid: int, name: string, grandparentName: Option<string>)

  datatype RawProcess = RawProcess(
    pid: int,
    parent: Option<Parent>,
    name: string,
    exe: Option<string>,
    argv: seq<string>,
    cwd: Option<string>,
    /** local ports of the process's connections in the LISTEN state, in the
        order psutil lists them, duplicates included */
    listenPorts: seq<int>,
    /** resident memory, an abstract sortable stand-in for `rss / 1024 / 1024` */
    memory: int,
    /** whole seconds since the process was created */
    ageSeconds: nat)
}

=== FILE: related.dfy ===
/** `_find_related_processes`: for a process already chosen for display,
    the other processes that belong with it, each tagged with the rule that
    matched. The rules are tried in order and the first match decides; the
    six "same directory" rules need the main process's working directory,
    and the last two need the candidate to be a child of the main process. */
module Related {
  import opened Options
  import opened Strings
  import opened Procs

  datatype Bundler = Webpack | Vite | Esbuild

  datatype RelatedKind =
    | UvManager
    | VirtualEnv
    | NpmScript
    | NodeManager(upperName: string)
    | BundlerProcess(bundler: Bundler)
    | Nodemon
    | Worker
    | WebServerWorker
  {
    /** The `type` string the program stores. */
    function Label(): string {
      match this
      case UvManager => "Package Manager (UV)"
      case VirtualEnv => "Virtual Environment"
      case NpmScript => "NPM Script"
      case NodeManager(u) => "Package Manager (" + u + ")"
      case BundlerProcess(Webpack) => "Bundler (Webpack)"
      case BundlerProcess(Vite) => "Bundler (Vite)"
      case BundlerProcess(Esbuild) => "Bundler (esbuild)"
      case Nodemon => "Auto-restart (Nodemon)"
      case Worker => "Worker Process"
      case WebServerWorker => "Web Server Worker"
    }

    /** The rules that only fire for a process in the main process's
        working directory. */
    predicate NeedsSameCwd() {
      !(Worker? || WebServerWorker?)
    }
  }

  /** One entry of `related_processes` (CPU and memory figures left out). */
  datatype RelatedRef = RelatedRef(pid: int, name: string, kind: RelatedKind, cmdline: seq<string>)

  /** `main_cwd and proc_cwd == main_cwd`: the main directory is known and
      non-empty, and the candidate's directory could be read and equals it. */
  predicate SameCwd(mainCwd: Option<string>, cwd: Option<string>) {
    mainCwd.Some? && mainCwd.value != "" && cwd == mainCwd
  }

  /** The candidate's parent is the main process. */
  predicate IsChildOf(p: RawProcess, mainPid: int) {
    p.parent.Some? && p.parent.value.pid == mainPid
  }

  const WorkerKeywords: seq<string> := ["worker", "celery", "rq", "huey"]

  /** The lower-cased command line, empty when there is none. */
  function CommandText(p: RawProcess): string {
    Lower(Join(p.argv, " "))
  }

  /** The rule chain, with `same` standing for `SameCwd` and `child` for
      `IsChildOf`. A Python child without a worker keyword matches nothing:
      its rule is taken and yields no type, so the Gunicorn/Uvicorn rule is
      never reached for it. */
  function KindFor(nameLower: string, cmd: string, same: bool, child: bool): (r: Option<RelatedKind>)
    ensures r.Some? && r.value.NeedsSameCwd() ==> same
    ensures r.Some? && !r.value.NeedsSameCwd() ==> child
    ensures r == Some(Worker) ==> Contains(nameLower, "python") && AnyContains(cmd, WorkerKeywords)
    ensures r == Some(WebServerWorker) ==> !Contains(nameLower, "python") && (Contains(cmd, "gunicorn") || Contains(cmd, "uvicorn"))
  {
    if Contains(nameLower, "uv") && same then Some(UvManager)
    else if (Contains(cmd, ".venv") || Contains(cmd, "virtualenv") || Contains(cmd, "pipenv")) && same then Some(VirtualEnv)
    else if Contains(cmd, "npm") && (Contains(cmd, "run") || Contains(cmd, "dev")) && same then Some(NpmScript)
    else if (Contains(nameLower, "yarn") || Contains(nameLower, "pnpm")) && same then Some(NodeManager(Upper(nameLower)))
    else if (Contains(cmd, "webpack") || Contains(cmd, "vite") || Contains(cmd, "esbuild")) && same then
      Some(BundlerProcess(if Contains(cmd, "webpack") then Webpack else if Contains(cmd, "vite") then Vite else Esbuild))
    else if Contains(cmd, "nodemon") && same then Some(Nodemon)
    else if child && Contains(nameLower, "python") then
      if AnyContains(cmd, WorkerKeywords) then Some(Worker) else None
    else if child && (Contains(cmd, "gunicorn") || Contains(cmd, "uvicorn")) then Some(WebServerWorker)
    else None
  }

  /** How candidate `p` relates to the main process, if it does. */
  function KindOf(mainPid: int, mainCwd: Option<string>, p: RawProcess): (r: Option<RelatedKind>)
    ensures r.Some? && r.value.NeedsSameCwd() ==> SameCwd(mainCwd, p.cwd)
    ensures r.Some? && !r.value.NeedsSameCwd() ==> IsChildOf(p, mainPid)
  {
    KindFor(Lower(p.name), CommandText(p), SameCwd(mainCwd, p.cwd), IsChildOf(p, mainPid))
  }

  /** `cmdline[:3]`. */
  function Take3(argv: seq<string>): (r: seq<string>)
    ensures |r| <= 3 && |r| <= |argv| && r == argv[..|r|]
    ensures |r| == if |argv| < 3 then |argv| else 3
  {
    if |argv| <= 3 then argv else argv[..3]
  }

  /** The entry recorded for a matched candidate. */
  function RefOf(p: RawProcess, k: RelatedKind): RelatedRef {
    RelatedRef(p.pid, p.name, k, Take3(p.argv))
  }

  /** Candidate `p` is listed: it is not the main process and a rule
      matches it. */
  predicate IsRelated(mainPid: int, mainCwd: Option<string>, p: RawProcess) {
    p.pid != mainPid && KindOf(mainPid, mainCwd, p).Some?
  }

  /** The scan over all candidates, in their order. */
  function FindRelated(mainPid: int, mainCwd: Option<string>, procs: seq<RawProcess>): (r: seq<RelatedRef>)
    ensures |r| <= |procs|
    ensures forall k :: 0 <= k < |r| ==> r[k].pid != mainPid && |r[k].cmdline| <= 3
    ensures forall x :: x in r <==>
      exists p :: p in procs && IsRelated(mainPid, mainCwd, p) && x == RefOf(p, KindOf(mainPid, mainCwd, p).value)
  {
    if |procs| == 0 then []
    else
      var p := procs[0];
      var rest := FindRelated(mainPid, mainCwd, procs[1..]);
      assert forall q :: q in procs <==> q == p || q in procs[1..];
      if IsRelated(mainPid, mainCwd, p) then [RefOf(p, KindOf(mainPid, mainCwd, p).value)] + rest else rest
  }

  // ---------------------------------------------------------------------
  // Properties

  /** The scan treats candidates one at a time: scanning two lists in turn
      lists the first list's matches before the second's, so the result
      keeps the candidates' order. */
  lemma {:induction false} FindRelatedAppend(mainPid: int, mainCwd: Option<string>, a: seq<RawProcess>, b: seq<RawProcess>)
    ensures FindRelated(mainPid, mainCwd, a + b) == FindRelated(mainPid, mainCwd, a) + FindRelated(mainPid, mainCwd, b)
  {
    if |a| > 0 {
      assert (a + b)[0] == a[0];
      assert (a + b)[1..] == a[1..] + b;
      FindRelatedAppend(mainPid, mainCwd, a[1..], b);
    } else {
      assert a + b == b;
    }
  }

  /** The main process never lists itself, whatever rule it would match. */
  lemma MainNeverRelated(mainPid: int, mainCwd: Option<string>, procs: seq<RawProcess>)
    ensures forall x :: x in FindRelated(mainPid, mainCwd, procs) ==> x.pid != mainPid
  {
  }

  /** Without a known, non-empty main directory only the two child rules can
      fire, so a non-child is never related. */
  lemma NoCwdOnlyChildren(mainPid: int, mainCwd: Option<string>, p: RawProcess)
    requires mainCwd.None? || mainCwd == Some("")
    ensures KindOf(mainPid, mainCwd, p).Some? ==> IsChildOf(p, mainPid)
    ensures KindOf(mainPid, mainCwd, p).Some? ==> !KindOf(mainPid, mainCwd, p).value.NeedsSameCwd()
  {
  }

  /** The same-directory rules fire only in the main directory. */
  lemma SameCwdRulesNeedCwd(mainPid: int, mainCwd: Option<string>, p: RawProcess)
    ensures KindOf(mainPid, mainCwd, p).Some? && KindOf(mainPid, mainCwd, p).value.NeedsSameCwd()
      ==> SameCwd(mainCwd, p.cwd)
  {
  }

  /** A Python child that no directory rule claims is a worker exactly when
      its command names a worker keyword, and is never a web-server worker
      even when it runs Gunicorn or Uvicorn. */
  lemma PythonChildRule(nameLower: string, cmd: string, child: bool)
    requires child && Contains(nameLower, "python")
    ensures KindFor(nameLower, cmd, false, child) == (if AnyContains(cmd, WorkerKeywords) then Some(Worker) else None)
    ensures KindFor(nameLower, cmd, true, child) != Some(WebServerWorker)
  {
  }

  /** Any process whose name mentions Python is never a web-server
      worker. */
  lemma PythonNeverWebServerWorker(mainPid: int, mainCwd: Option<string>, p: RawProcess)
    requires Contains(Lower(p.name), "python")
    ensures KindOf(mainPid, mainCwd, p) != Some(WebServerWorker)
  {
  }

  /** A Yarn or PNPM helper is labelled with its upper-cased name. */
  lemma NodeManagerLabel(mainPid: int, mainCwd: Option<string>, p: RawProcess)
    requires KindOf(mainPid, mainCwd, p).Some? && KindOf(mainPid, mainCwd, p).value.NodeManager?
    ensures KindOf(mainPid, mainCwd, p).value.Label() == "Package Manager (" + Upper(Lower(p.name)) + ")"
    ensures Contains(Lower(p.name), "yarn") || Contains(Lower(p.name), "pnpm")
  {
  }
}

=== FILE: strings.dfy ===
/** The string vocabulary the program leans on, written once: ASCII case
    mapping, substring search, joining and splitting, whitespace tokenising,
    the two path helpers (`basename`, `dirname`) and decimal rendering.
    Each definition follows the behaviour of the corresponding Python
    built-in on the inputs the program gives it. */
module Strings {
  import opened Options

  // ---------------------------------------------------------------------
  // Case mapping (ASCII only)

  function LowerChar(c: char): char {
    if 'A' <= c <= 'Z' then (c as int + 32) as char else c
  }

  function UpperChar(c: char): char {
    if 'a' <= c <= 'z' then (c as int - 32) as char else c
  }

  predicate IsLetter(c: char) {
    'a' <= c <= 'z' || 'A' <= c <= 'Z'
  }

  /** `s.lower()` over ASCII. */
  function Lower(s: string): (r: string)
    ensures |r| == |s|
    ensures forall i :: 0 <= i < |s| ==> r[i] == LowerChar(s[i])
  {
    if |s| == 0 then "" else [LowerChar(s[0])] + Lower(s[1..])
  }

  /** `s.upper()` over ASCII. */
  function Upper(s: string): (r: string)
    ensures |r| == |s|
    ensures forall i :: 0 <= i < |s| ==> r[i] == UpperChar(s[i])
  {
    if |s| == 0 then "" else [UpperChar(s[0])] + Upper(s[1..])
  }

  /** `s.title()` over ASCII: a letter is upper-cased when it does not
      follow another letter and lower-cased when it does. */
  function Title(s: string): string {
    TitleAfter(s, false)
  }

  function TitleAfter(s: string, afterLetter: bool): string {
    if |s| == 0 then ""
    else [if afterLetter then LowerChar(s[0]) else UpperChar(s[0])] + TitleAfter(s[1..], IsLetter(s[0]))
  }

  predicate IsLowerWord(s: string) {
    forall i :: 0 <= i < |s| ==> 'a' <= s[i] <= 'z'
  }

  /** Title-casing a lower-case word capitalises its first letter only, so
      lower-casing the title gives the word back. */
  lemma {:induction false} TitleOfLowerWord(s: string)
    requires |s| > 0 && IsLowerWord(s)
    ensures Title(s) == [UpperChar(s[0])] + s[1..]
    ensures 'A' <= Title(s)[0] <= 'Z'
    ensures Lower(Title(s)) == s
  {
    TailAfterLetter(s[1..]);
    assert Title(s) == [UpperChar(s[0])] + TitleAfter(s[1..], true);
    var t := Title(s);
    assert forall i :: 0 <= i < |s| ==> Lower(t)[i] == s[i];
  }

  lemma {:induction false} TailAfterLetter(s: string)
    requires IsLowerWord(s)
    ensures TitleAfter(s, true) == s
  {
    if |s| > 0 {
      TailAfterLetter(s[1..]);
    }
  }

  // ---------------------------------------------------------------------
  // Substrings

  predicate OccursAt(s: string, sub: string, i: nat) {
    i + |sub| <= |s| && s[i..i + |sub|] == sub
  }

  /** Python's `sub in s` on strings: `sub` is a prefix of `s` or of one of
      its suffixes. */
  predicate Contains(s: string, sub: string)
    decreases |s|
  {
    StartsWith(s, sub) || (|s| > 0 && Contains(s[1..], sub))
  }

  /** `Contains` holds exactly when `sub` occurs at some position. */
  lemma {:induction false} ContainsAt(s: string, sub: string)
    ensures Contains(s, sub) <==> exists i: nat :: i <= |s| && OccursAt(s, sub, i)
    decreases |s|
  {
    if StartsWith(s, sub) {
      assert s[0..|sub|] == s[..|sub|];
      assert OccursAt(s, sub, 0);
    } else if |s| > 0 {
      ContainsAt(s[1..], sub);
      if Contains(s[1..], sub) {
        var i: nat :| i <= |s| - 1 && OccursAt(s[1..], sub, i);
        assert s[i + 1..i + 1 + |sub|] == s[1..][i..i + |sub|];
        assert OccursAt(s, sub, i + 1);
      } else {
        forall i: nat | i <= |s|
          ensures !OccursAt(s, sub, i)
        {
          if i == 0 && |sub| <= |s| {
            assert s[0..|sub|] == s[..|sub|];
          } else if i > 0 && OccursAt(s, sub, i) {
            assert s[1..][i - 1..i - 1 + |sub|] == s[i..i + |sub|];
            assert OccursAt(s[1..], sub, i - 1);
          }
        }
      }
    } else {
      forall i: nat | i <= |s|
        ensures !OccursAt(s, sub, i)
      {
      }
    }
  }

  /** An occurrence at a known position makes `Contains` hold. */
  lemma ContainsFromOccurrence(s: string, sub: string, i: nat)
    requires OccursAt(s, sub, i)
    ensures Contains(s, sub)
  {
    ContainsAt(s, sub);
  }

  /** Being a substring is transitive. */
  lemma ContainsTransitive(a: string, b: string, c: string)
    requires Contains(a, b) && Contains(b, c)
    ensures Contains(a, c)
  {
    ContainsAt(a, b);
    ContainsAt(b, c);
    ContainsAt(a, c);
    var i: nat :| i <= |a| && OccursAt(a, b, i);
    var j: nat :| j <= |b| && OccursAt(b, c, j);
    forall k | 0 <= k < |c|
      ensures a[i + j + k] == c[k]
    {
      assert c[k] == b[j + k] == a[i..i + |b|][j + k];
    }
    assert a[i + j..i + j + |c|] == c;
    assert OccursAt(a, c, i + j);
  }

  /** A string contains whatever one of its slices contains. */
  lemma ContainsInSlice(s: string, lo: nat, hi: nat, sub: string)
    requires lo <= hi <= |s| && Contains(s[lo..hi], sub)
    ensures Contains(s, sub)
  {
    ContainsAt(s[lo..hi], sub);
    ContainsAt(s, sub);
    var i: nat :| i <= hi - lo && OccursAt(s[lo..hi], sub, i);
    forall k | 0 <= k < |sub|
      ensures s[lo + i + k] == sub[k]
    {
      assert sub[k] == s[lo..hi][i..i + |sub|][k];
    }
    assert s[lo + i..lo + i + |sub|] == sub;
    assert OccursAt(s, sub, lo + i);
  }

  predicate StartsWith(s: string, prefix: string) {
    |prefix| <= |s| && s[..|prefix|] == prefix
  }

  /** Python's `s.endswith(suffix)`. */
  predicate EndsWith(s: string, suffix: string) {
    |suffix| <= |s| && s[|s| - |suffix|..] == suffix
  }

  /** The first position at or after `i` where `sub` occurs, as Python's
      `s.find(sub, i)` (None standing for -1). */
  function Find(s: string, sub: string, i: nat): (r: Option<nat>)
    requires i <= |s|
    ensures r.Some? ==> i <= r.value <= |s| && OccursAt(s, sub, r.value)
    ensures r.Some? ==> forall j: nat :: i <= j < r.value ==> !OccursAt(s, sub, j)
    ensures r.None? ==> forall j: nat :: i <= j <= |s| ==> !OccursAt(s, sub, j)
    decreases |s| - i
  {
    if OccursAt(s, sub, i) then Some(i)
    else if i == |s| then None
    else Find(s, sub, i + 1)
  }

  /** `Find` from the start returns the first occurrence. */
  lemma FindFirst(s: string, sub: string, k: nat)
    requires OccursAt(s, sub, k)
    requires forall j: nat :: j < k ==> !OccursAt(s, sub, j)
    ensures Find(s, sub, 0) == Some(k)
  {
  }

  /** Python's `s.replace(pat, repl)`: every non-overlapping occurrence of
      `pat`, scanning left to right, is replaced by `repl`. */
  function ReplaceAll(s: string, pat: string, repl: string): (r: string)
    requires |pat| > 0
    decreases |s|
  {
    if |s| < |pat| then s
    else if s[..|pat|] == pat then repl + ReplaceAll(s[|pat|..], pat, repl)
    else [s[0]] + ReplaceAll(s[1..], pat, repl)
  }

  // ---------------------------------------------------------------------
  // Joining and splitting

  /** Python's `sep.join(xs)`. */
  function Join(xs: seq<string>, sep: string): string {
    if |xs| == 0 then ""
    else if |xs| == 1 then xs[0]
    else xs[0] + sep + Join(xs[1..], sep)
  }

  /** A join starts with its first piece, followed by the separator when
      there is more than one piece. */
  lemma JoinHead(xs: seq<string>, sep: string)
    requires |xs| > 0
    ensures |xs| == 1 ==> Join(xs, sep) == xs[0]
    ensures |xs| > 1 ==> StartsWith(Join(xs, sep), xs[0] + sep)
  {
    if |xs| > 1 {
      assert Join(xs, sep) == xs[0] + sep + Join(xs[1..], sep);
    }
  }

  /** Python's `s.split(c)` for a one-character separator: the pieces
      between separators, empty ones included. */
  function Split(s: string, c: char): (parts: seq<string>)
    ensures |parts| >= 1
  {
    if |s| == 0 then [""]
    else
      var rest := Split(s[1..], c);
      if s[0] == c then [""] + rest else [[s[0]] + rest[0]] + rest[1..]
  }

  /** The first piece of `s.split(c)`: a prefix of `s` without `c`, ending
      at the first `c` or at the end. */
  lemma {:induction false} SplitHead(s: string, c: char)
    ensures StartsWith(s, Split(s, c)[0])
    ensures c !in Split(s, c)[0]
    ensures |Split(s, c)[0]| == |s| || s[|Split(s, c)[0]|] == c
  {
    if |s| > 0 {
      SplitHead(s[1..], c);
      var h := Split(s[1..], c)[0];
      if s[0] != c {
        assert Split(s, c)[0] == [s[0]] + h;
        assert s[1..][..|h|] == h;
        assert s[..1 + |h|] == [s[0]] + h;
        if |h| < |s[1..]| {
          assert s[1 + |h|] == s[1..][|h|];
        }
      }
    }
  }

  /** The first index of `x` in `xs`, as Python's `xs.index(x)`. */
  function IndexOf<T(==)>(xs: seq<T>, x: T): (r: Option<nat>)
    ensures r.None? <==> x !in xs
    ensures r.Some? ==> r.value < |xs| && xs[r.value] == x && x !in xs[..r.value]
  {
    if |xs| == 0 then None
    else if xs[0] == x then Some(0)
    else
      match IndexOf(xs[1..], x)
      case None => None
      case Some(k) =>
        assert xs[1..][..k] == xs[1..k + 1];
        Some(k + 1)
  }

  /** The first index whose element satisfies `p`. */
  /** Position `i` holds the first element of `xs` that satisfies `p`. */
  predicate IsFirst<T>(xs: seq<T>, p: T -> bool, i: int) {
    0 <= i < |xs| && p(xs[i]) && forall j :: 0 <= j < i ==> !p(xs[j])
  }

  /** No element of `xs` satisfies `p`. */
  predicate NoneSatisfy<T>(xs: seq<T>, p: T -> bool) {
    forall j :: 0 <= j < |xs| ==> !p(xs[j])
  }

  function FirstWhere<T>(xs: seq<T>, p: T -> bool): (r: Option<nat>)
    ensures r.Some? ==> r.value < |xs| && p(xs[r.value])
    ensures r.Some? ==> forall j :: 0 <= j < r.value ==> !p(xs[j])
    ensures r.None? ==> forall j :: 0 <= j < |xs| ==> !p(xs[j])
    ensures r.None? <==> NoneSatisfy(xs, p)
    ensures forall i :: IsFirst(xs, p, i) ==> r == Some(i)
  {
    if |xs| == 0 then None
    else if p(xs[0]) then Some(0)
    else
      match FirstWhere(xs[1..], p)
      case None => None
      case Some(k) => Some(k + 1)
  }

  /** Python's `any(m in s for m in markers)`. */
  predicate AnyContains(s: string, markers: seq<string>) {
    exists k | 0 <= k < |markers| :: Contains(s, markers[k])
  }

  /** The whitespace Python's argument-less `split()` and `strip()` act on,
      restricted to ASCII. */
  predicate IsSpace(c: char) {
    c == ' ' || 9 <= c as int <= 13 || 28 <= c as int <= 31
  }

  /** The leading run of non-whitespace characters. */
  function Token(s: string): (w: string)
    ensures |w| <= |s| && w == s[..|w|]
    ensures |s| > 0 && !IsSpace(s[0]) ==> |w| > 0
    ensures forall i :: 0 <= i < |w| ==> !IsSpace(w[i])
  {
    if |s| == 0 || IsSpace(s[0]) then "" else [s[0]] + Token(s[1..])
  }

  /** Python's `s.split()`: the maximal whitespace-free runs, in order.
      Together the words hold exactly the text's non-whitespace characters;
      `WordsBlankPrefix` and `WordsCons` say where one word ends. */
  function Words(s: string): (ws: seq<string>)
    ensures forall k :: 0 <= k < |ws| ==> |ws[k]| > 0
    ensures forall k, i :: 0 <= k < |ws| && 0 <= i < |ws[k]| ==> !IsSpace(ws[k][i])
    ensures Concat(ws) == NonSpace(s)
    decreases |s|
  {
    if |s| == 0 then []
    else if IsSpace(s[0]) then
      assert s == [s[0]] + s[1..];
      NonSpaceAppend([s[0]], s[1..]);
      Words(s[1..])
    else
      var w := Token(s);
      assert s == w + s[|w|..];
      NonSpaceAppend(w, s[|w|..]);
      NonSpaceOfWord(w);
      [w] + Words(s[|w|..])
  }

  /** The characters of a text that are not whitespace, in order. */
  function NonSpace(s: string): string {
    if |s| == 0 then "" else (if IsSpace(s[0]) then "" else [s[0]]) + NonSpace(s[1..])
  }

  function Concat(ws: seq<string>): string {
    if |ws| == 0 then "" else ws[0] + Concat(ws[1..])
  }

  lemma {:induction false} NonSpaceAppend(a: string, b: string)
    ensures NonSpace(a + b) == NonSpace(a) + NonSpace(b)
  {
    if |a| > 0 {
      assert (a + b)[1..] == a[1..] + b;
      NonSpaceAppend(a[1..], b);
    } else {
      assert a + b == b;
    }
  }

  lemma {:induction false} NonSpaceOfWord(w: string)
    requires forall i :: 0 <= i < |w| ==> !IsSpace(w[i])
    ensures NonSpace(w) == w
  {
    if |w| > 0 {
      NonSpaceOfWord(w[1..]);
    }
  }

  /** Leading whitespace adds no word. */
  lemma {:induction false} WordsBlankPrefix(b: string, s: string)
    requires forall i :: 0 <= i < |b| ==> IsSpace(b[i])
    ensures Words(b + s) == Words(s)
  {
    if |b| > 0 {
      assert (b + s)[1..] == b[1..] + s;
      WordsBlankPrefix(b[1..], s);
    } else {
      assert b + s == s;
    }
  }

  /** A whitespace-free run that ends at whitespace or at the end of the
      text is the next word. */
  lemma WordsCons(w: string, rest: string)
    requires |w| > 0 && forall i :: 0 <= i < |w| ==> !IsSpace(w[i])
    requires |rest| == 0 || IsSpace(rest[0])
    ensures Words(w + rest) == [w] + Words(rest)
  {
    TokenOfRun(w, rest);
    assert (w + rest)[|w|..] == rest;
  }

  lemma {:induction false} TokenOfRun(w: string, rest: string)
    requires forall i :: 0 <= i < |w| ==> !IsSpace(w[i])
    requires |rest| == 0 || IsSpace(rest[0])
    ensures Token(w + rest) == w
  {
    if |w| > 0 {
      assert (w + rest)[1..] == w[1..] + rest;
      TokenOfRun(w[1..], rest);
    } else {
      assert w + rest == rest;
    }
  }

  // ---------------------------------------------------------------------
  // Paths (POSIX `os.path`)

  /** `os.path.basename(p)`: the text after the last '/'. */
  function Basename(p: string): (r: string)
    ensures '/' !in r
    ensures |r| <= |p| && r == p[|p| - |r|..]
    ensures |r| < |p| ==> p[|p| - |r| - 1] == '/'
  {
    if |p| == 0 then ""
    else if p[|p| - 1] == '/' then ""
    else
      var q := p[..|p| - 1];
      var b := Basename(q);
      var r := b + [p[|p| - 1]];
      assert b == q[|q| - |b|..] == p[|p| - |r|..|p| - 1];
      assert p[|p| - |r|..] == p[|p| - |r|..|p| - 1] + [p[|p| - 1]];
      assert |b| < |q| ==> q[|q| - |b| - 1] == p[|p| - |r| - 1];
      r
  }

  predicate AllSlashes(s: string) {
    forall i :: 0 <= i < |s| ==> s[i] == '/'
  }

  /** `s.rstrip('/')`. */
  function TrimTrailingSlashes(s: string): (r: string)
    ensures |r| <= |s| && r == s[..|r|]
  {
    if |s| > 0 && s[|s| - 1] == '/' then TrimTrailingSlashes(s[..|s| - 1]) else s
  }

  /** `os.path.dirname(p)`: everything up to the last '/', with trailing
      slashes removed unless that leaves only slashes. */
  function Dirname(p: string): (r: string)
    ensures |r| <= |p| && r == p[..|r|]
  {
    var head := p[..|p| - |Basename(p)|];
    if head != "" && !AllSlashes(head) then TrimTrailingSlashes(head) else head
  }

  // ---------------------------------------------------------------------
  // Decimal rendering

  function DigitChar(d: nat): char
    requires d < 10
  {
    ('0' as int + d) as char
  }

  predicate IsDigit(c: char) {
    '0' <= c <= '9'
  }

  /** `str(n)` for a natural number. */
  function Dec(n: nat): (r: string)
    ensures |r| > 0
    ensures forall i :: 0 <= i < |r| ==> IsDigit(r[i])
  {
    if n < 10 then [DigitChar(n)] else Dec(n / 10) + [DigitChar(n % 10)]
  }

  predicate AllDigits(s: string) {
    forall i :: 0 <= i < |s| ==> IsDigit(s[i])
  }

  /** `int(s)` for a string of decimal digits. */
  function DecValue(s: string): nat
    requires AllDigits(s)
  {
    if |s| == 0 then 0
    else DecValue(s[..|s| - 1]) * 10 + (s[|s| - 1] as int - '0' as int)
  }

  /** Reading back a rendered number gives the number. */
  lemma {:induction false} DecValueOfDec(n: nat)
    ensures DecValue(Dec(n)) == n
  {
    if n >= 10 {
      DecValueOfDec(n / 10);
      assert Dec(n)[..|Dec(n)| - 1] == Dec(n / 10);
    }
  }

  /** No leading zero, as `str` writes every natural number ("0" itself
      being the one number written with a zero first). */
  predicate NoLeadingZero(s: string) {
    |s| <= 1 || s[0] != '0'
  }

  /** A positive number's rendering starts with a non-zero digit. */
  lemma {:induction false} DecLeading(n: nat)
    requires n >= 1
    ensures Dec(n)[0] != '0'
  {
    if n >= 10 {
      DecLeading(n / 10);
      assert Dec(n)[0] == Dec(n / 10)[0];
    }
  }

  /** `str(n)` never writes a leading zero. */
  lemma DecNoLeadingZero(n: nat)
    ensures NoLeadingZero(Dec(n))
  {
    if n >= 10 {
      DecLeading(n);
    }
  }

  /** A digit string that starts with a non-zero digit has a positive value. */
  lemma {:induction false} DecValuePositive(s: string)
    requires |s| > 0 && AllDigits(s) && s[0] != '0'
    ensures DecValue(s) >= 1
  {
    if |s| > 1 {
      DecValuePositive(s[..|s| - 1]);
    }
  }

  /** Rendering the value of a digit string without a leading zero gives the
      string back: such a string is the only text that reads as its value. */
  lemma {:induction false} DecOfDecValue(s: string)
    requires |s| > 0 && AllDigits(s) && NoLeadingZero(s)
    ensures Dec(DecValue(s)) == s
  {
    var d := s[|s| - 1] as int - '0' as int;
    assert DigitChar(d) == s[|s| - 1];
    if |s| == 1 {
      assert DecValue(s) == d;
      assert s == [s[0]];
    } else {
      var p := s[..|s| - 1];
      assert p[0] == s[0];
      DecValuePositive(p);
      DecOfDecValue(p);
      var n := DecValue(s);
      assert n == DecValue(p) * 10 + d && n >= 10;
      assert n / 10 == DecValue(p) && n % 10 == d;
      assert Dec(n) == Dec(n / 10) + [DigitChar(n % 10)];
      assert s == p + [s[|s| - 1]];
    }
  }

  /** The length of the leading run of digits. */
  function DigitRun(s: string): (k: nat)
    ensures k <= |s| && AllDigits(s[..k])
    ensures k < |s| ==> !IsDigit(s[k])
  {
    if |s| > 0 && IsDigit(s[0]) then
      var k := 1 + DigitRun(s[1..]);
      assert forall i :: 1 <= i < k ==> s[..k][i] == s[1..][..k - 1][i - 1];
      k
    else 0
  }

  /** The digit run of a digit string followed by a non-digit ends exactly
      at the end of the digit string. */
  lemma {:induction false} DigitRunOfPrefix(digits: string, rest: string)
    requires AllDigits(digits)
    requires |rest| > 0 && !IsDigit(rest[0])
    ensures DigitRun(digits + rest) == |digits|
  {
    if |digits| > 0 {
      assert (digits + rest)[1..] == digits[1..] + rest;
      DigitRunOfPrefix(digits[1..], rest);
    }
  }

  /** A command-line flag (`arg.startswith('-')`). */
  predicate IsFlag(arg: string) {
    StartsWith(arg, "-")
  }
}

=== FILE: uptime.dfy ===
/** `format_uptime`: an age in seconds rendered in the largest fitting unit
    and the next one down ("42s", "3m 7s", "5h 12m", "2d 3h"). The age is
    taken in whole seconds: for a non-negative float every truncation the
    function makes gives the same digits as on its integer part. */
module Uptime {
  import opened Options
  import opened Strings

  /** The two numbers shown and the pair of units they are in. */
  datatype Reading =
    | Secs(s: nat)
    | MinSecs(m: nat, s: nat)
    | HourMins(h: nat, m: nat)
    | DayHours(d: nat, h: nat)

  /** The band an age falls into and the truncated numbers shown for it.
      The seconds and minutes bands are exact; the hours band drops the
      seconds and the days band the minutes. */
  function Measure(t: nat): (r: Reading)
    ensures r.Secs? <==> t < 60
    ensures r.MinSecs? <==> 60 <= t < 3600
    ensures r.HourMins? <==> 3600 <= t < 86400
    ensures r.DayHours? <==> 86400 <= t
    ensures r.Secs? ==> r.s == t
    ensures r.MinSecs? ==> 1 <= r.m < 60 && r.s < 60 && 60 * r.m + r.s == t
    ensures r.HourMins? ==> 1 <= r.h < 24 && r.m < 60 && 3600 * r.h + 60 * r.m <= t < 3600 * r.h + 60 * r.m + 60
    ensures r.DayHours? ==> 1 <= r.d && r.h < 24 && 86400 * r.d + 3600 * r.h <= t < 86400 * r.d + 3600 * r.h + 3600
  {
    if t < 60 then Secs(t)
    else if t < 3600 then MinSecs(t / 60, t % 60)
    else if t < 86400 then HourMins(t / 3600, (t % 3600) / 60)
    else DayHours(t / 86400, (t % 86400) / 3600)
  }

  function Render(r: Reading): string {
    match r
    case Secs(s) => Dec(s) + "s"
    case MinSecs(m, s) => Dec(m) + "m " + Dec(s) + "s"
    case HourMins(h, m) => Dec(h) + "h " + Dec(m) + "m"
    case DayHours(d, h) => Dec(d) + "d " + Dec(h) + "h"
  }

  /** The age text `get_process_info` reports: it reads back as the
      measured reading. */
  function FormatUptime(t: nat): (r: string)
    ensures ParseUptime(r) == Some(Measure(t))
    ensures forall text :: ParseUptime(text) == Some(Measure(t)) <==> text == r
  {
    ParseRender(Measure(t));
    assert forall text :: ParseUptime(text) == Some(Measure(t)) ==> text == Render(Measure(t)) by {
      forall text | ParseUptime(text) == Some(Measure(t)) {
        ParsedIsRendered(text);
      }
    }
    Render(Measure(t))
  }

  /** Reads a rendered age back: a number and a unit letter, optionally
      followed by a space, a second number and a second unit letter, the
      two units being m/s, h/m or d/h. Numbers are written as `str` writes
      them, so one with a leading zero ("05s") is not a rendered age. */
  function ParseUptime(text: string): Option<Reading> {
    var k := DigitRun(text);
    if k == 0 || k == |text| || !NoLeadingZero(text[..k]) then None
    else
      var a := DecValue(text[..k]);
      if k + 1 == |text| then
        if text[k] == 's' then Some(Secs(a)) else None
      else if text[k + 1] != ' ' then None
      else
        var rest := text[k + 2..];
        var k2 := DigitRun(rest);
        if k2 == 0 || k2 + 1 != |rest| || !NoLeadingZero(rest[..k2]) then None
        else
          UnitPair(a, text[k], DecValue(rest[..k2]), rest[k2])
  }

  /** The two-number reading "<a><u> <b><v>" names, by its unit letters. */
  function UnitPair(a: nat, u: char, b: nat, v: char): Option<Reading> {
    if u == 'm' && v == 's' then Some(MinSecs(a, b))
    else if u == 'h' && v == 'm' then Some(HourMins(a, b))
    else if u == 'd' && v == 'h' then Some(DayHours(a, b))
    else None
  }

  /** Splits a rendered number off the front of a text. */
  lemma NumberThenUnit(n: nat, unit: char, tail: string)
    requires !IsDigit(unit)
    ensures DigitRun(Dec(n) + [unit] + tail) == |Dec(n)|
    ensures (Dec(n) + [unit] + tail)[..|Dec(n)|] == Dec(n)
    ensures DecValue((Dec(n) + [unit] + tail)[..|Dec(n)|]) == n
    ensures NoLeadingZero((Dec(n) + [unit] + tail)[..|Dec(n)|])
    ensures (Dec(n) + [unit] + tail)[|Dec(n)|] == unit
    ensures (Dec(n) + [unit] + tail)[|Dec(n)| + 1..] == tail
  {
    assert Dec(n) + [unit] + tail == Dec(n) + ([unit] + tail);
    DigitRunOfPrefix(Dec(n), [unit] + tail);
    assert (Dec(n) + [unit] + tail)[..|Dec(n)|] == Dec(n);
    DecValueOfDec(n);
    DecNoLeadingZero(n);
  }

  /** Every reading is recovered from its rendering. */
  lemma ParseRender(r: Reading)
    ensures ParseUptime(Render(r)) == Some(r)
  {
    match r
    case Secs(s) => ParseSecs(s);
    case MinSecs(m, s) => ParseMinSecs(m, s);
    case HourMins(h, m) => ParseHourMins(h, m);
    case DayHours(d, h) => ParseDayHours(d, h);
  }

  lemma ParseSecs(s: nat)
    ensures ParseUptime(Render(Secs(s))) == Some(Secs(s))
  {
    NumberThenUnit(s, 's', "");
    assert Render(Secs(s)) == Dec(s) + ['s'] + "";
  }

  lemma ParseMinSecs(m: nat, s: nat)
    ensures ParseUptime(Render(MinSecs(m, s))) == Some(MinSecs(m, s))
  {
    assert Render(MinSecs(m, s)) == Dec(m) + ['m'] + ([' '] + (Dec(s) + ['s']));
    TwoNumbers(m, 'm', s, 's');
  }

  lemma ParseHourMins(h: nat, m: nat)
    ensures ParseUptime(Render(HourMins(h, m))) == Some(HourMins(h, m))
  {
    assert Render(HourMins(h, m)) == Dec(h) + ['h'] + ([' '] + (Dec(m) + ['m']));
    TwoNumbers(h, 'h', m, 'm');
  }

  lemma ParseDayHours(d: nat, h: nat)
    ensures ParseUptime(Render(DayHours(d, h))) == Some(DayHours(d, h))
  {
    assert Render(DayHours(d, h)) == Dec(d) + ['d'] + ([' '] + (Dec(h) + ['h']));
    TwoNumbers(d, 'd', h, 'h');
  }

  /** The parse of "<a><u> <b><v>": the two numbers and the unit letters. */
  lemma TwoNumbers(a: nat, u: char, b: nat, v: char)
    requires !IsDigit(u) && !IsDigit(v)
    ensures var text := Dec(a) + [u] + ([' '] + (Dec(b) + [v]));
      ParseUptime(text) == UnitPair(a, u, b, v)
  {
    var second := Dec(b) + [v];
    var text := Dec(a) + [u] + ([' '] + second);
    NumberThenUnit(a, u, [' '] + second);
    var k := DigitRun(text);
    assert k == |Dec(a)| && 0 < k < |text|;
    assert DecValue(text[..k]) == a;
    assert k + 1 < |text| && text[k + 1] == ' ';
    assert text[k + 2..] == second by {
      assert text[k + 1..] == [' '] + second;
    }
    assert second == Dec(b) + [v] + "";
    NumberThenUnit(b, v, "");
    var k2 := DigitRun(second);
    assert k2 == |Dec(b)| && k2 + 1 == |second|;
    assert DecValue(second[..k2]) == b;
    assert text[k] == u && second[k2] == v;
  }

  /** Every text the parser accepts is the rendering of what it reads: no
      reading has two texts. */
  lemma {:induction false} ParsedIsRendered(text: string)
    ensures ParseUptime(text).Some? ==> Render(ParseUptime(text).value) == text
  {
    var k := DigitRun(text);
    if ParseUptime(text).Some? {
      var a := DecValue(text[..k]);
      SplitNumber(text, k);
      if k + 1 == |text| {
        assert ParseUptime(text) == Some(Secs(a));
        assert text[k..] == "s";
      } else {
        var rest := text[k + 2..];
        var k2 := DigitRun(rest);
        var b := DecValue(rest[..k2]);
        SplitNumber(rest, k2);
        assert text[k..] == [text[k]] + ([' '] + rest);
        assert rest[k2..] == [rest[k2]];
        ParsedPair(a, text[k], b, rest[k2]);
      }
    }
  }

  /** A leading digit run without a leading zero is the rendering of its
      value. */
  lemma SplitNumber(text: string, k: nat)
    requires 0 < k <= |text| && AllDigits(text[..k]) && NoLeadingZero(text[..k])
    ensures text == Dec(DecValue(text[..k])) + text[k..]
  {
    DecOfDecValue(text[..k]);
    assert text == text[..k] + text[k..];
  }

  /** The two-number readings, by their unit letters. */
  lemma ParsedPair(a: nat, u: char, b: nat, v: char)
    requires UnitPair(a, u, b, v).Some?
    ensures Render(UnitPair(a, u, b, v).value) == Dec(a) + [u] + ([' '] + (Dec(b) + [v]))
  {
    if u == 'm' {
      assert Render(MinSecs(a, b)) == Dec(a) + ['m'] + ([' '] + (Dec(b) + ['s']));
    } else if u == 'h' {
      assert Render(HourMins(a, b)) == Dec(a) + ['h'] + ([' '] + (Dec(b) + ['m']));
    } else {
      assert Render(DayHours(a, b)) == Dec(a) + ['d'] + ([' '] + (Dec(b) + ['h']));
    }
  }


  /** A text rejected for a leading zero, though it spells the number 5. */
  lemma LeadingZeroRejected()
    ensures ParseUptime("05s") == None
  {
    assert DigitRun("05s") == 2 by {
      assert "05s"[1..] == "5s" && "5s"[1..] == "s";
    }
  }

  /** Below an hour, where the bands are exact, different ages render
      differently. */
  lemma FormatUptimeExactBelowHour(t: nat, t': nat)
    requires t < 3600 && t' < 3600 && FormatUptime(t) == FormatUptime(t')
    ensures t == t'
  {
    assert ParseUptime(FormatUptime(t)) == Some(Measure(t));
    assert ParseUptime(FormatUptime(t')) == Some(Measure(t'));
  }
}
